=== FILE: README.md ===
# Travel planner: service adapters and trip builder

A Dafny model of the core of the travel planner, a small Node.js web app.
The app builds a trip record from a city, a country and two dates, using
three external services. Two parts are modelled:

- **The three server-side adapters** (geo, image, weather). The geo and
  image adapters check their parameters, and throw a `ValidationError` with
  status code 400 when one is unacceptable; the weather adapter checks
  nothing. Each builds the request URL, performs one HTTP GET, and turns the
  reply into the parsed JSON body or an error.
- **The client-side trip builder.** It computes the inclusive day count
  between departure and return (`calculateDurationDays`) and assembles the
  trip record around it (`buildTripData`). The forecast and the image in that
  record are still fixed placeholders in this version of the code.

Each adapter is a pure function of its arguments, its configuration (base
URL, API key, user name) and the outcome of its one `fetch`. That outcome is
a network failure, or a response with a status, a JSON body (or a parse
failure) and a text body (or a read failure). The result of an adapter is a
`Run` with three parts:

- the requests it issued;
- the body readers it called, in order;
- how its promise settled.

This makes "nothing is fetched when validation fails" and "the body of a
failed reply is never parsed" statements about the result.

Supporting modules:

- `JsCore`: JavaScript's `undefined`/`null`, default parameters and `??`,
  `trim`, the UTF-16 `length`, and `String(n)`.
- `Utf8`: UTF-8 encoding and decoding.
- `FormUrlencoded`: the `application/x-www-form-urlencoded` serializer that
  `URLSearchParams` uses (section 5.2 of the WHATWG URL Standard), with the
  parser of section 5.1 as its partner.
- `JsonValues`: parsed JSON bodies and property reads on them.
- `ValidationErrors` and `JsErrors`: the error values.
- `Exchange`: requests, replies and runs.

Dates follow JavaScript's local time with a fixed offset. A `Date` is its
local time value in milliseconds, or the invalid date.

## Model

| member | source | states |
|---|---|---|
| `ValidationErrors.NewValidationError` | src/server/js/ValidationError.js:1-8 | A new error has name 'ValidationError', the message as both `message` and `statusMessage`, and the given status code. |
| `ValidationErrors.ConstructedRoundTrip` | src/server/js/ValidationError.js:2-7 | An error is fully determined by its class, code and message: rebuilding it from them gives the same error. |
| `ValidationErrors.GeoCopyIsDistinctClass` | src/server/js/fetchGeoData.js:67-74 | The geo adapter's private copy of the class builds errors equal in every field. They are not instances of the shared class. |
| `JsCore.TrimEmptyIffAllWhiteSpace` | src/server/js/fetchGeoData.js:34 | `s.trim()` is empty exactly when every code point of `s` is ECMAScript white space or a line terminator. |
| `JsCore.Utf16Length` | src/server/js/fetchImageData.js:45 | A string's `length` lies between its code-point count and twice that. It equals the count exactly when no code point is above U+FFFF, and twice the count exactly when all are. |
| `JsCore.DecimalRoundTrip` | src/server/js/fetchGeoData.js:20-21 | The decimal text JavaScript writes for a status code reads back as that code. |
| `Utf8.DecodeEncode` | src/server/js/fetchGeoData.js:57-62 | Decoding the UTF-8 bytes of a string gives the string back. |
| `FormUrlencoded.ParseSerialize` | src/server/js/fetchGeoData.js:56-63 | Parsing the serialized query gives back every appended pair, in order, with names and values unchanged, whatever code points they hold. |
| `FormUrlencoded.EncodeUnreserved` | src/server/js/fetchWeatherData.js:23 | A value made only of unreserved characters is serialized as it is. |
| `JsonValues.ToText` | src/server/js/fetchGeoData.js:28 | Turning a value into text inside the template literal succeeds exactly when it is convertible. An object with its own `toString` member throws, and so does an array holding one. A string becomes itself. |
| `JsonValues.ReadProperty` | src/server/js/fetchGeoData.js:26 | Reading a property of `null` is a TypeError. A property is present exactly when the value is an object holding that key, and then it is that member. |
| `GeoService.PatternFoundIffEndsInTwoLetters` | src/server/js/fetchGeoData.js:41 | `/[A-Z][A-Z]$/i` matches a string exactly when its last two code points are ASCII letters. |
| `GeoService.CheckParams` | src/server/js/fetchGeoData.js:33-48 | Throws the city error exactly when the city is missing or blank. Throws the country error exactly when the city is fine, the country is non-blank and does not end in two letters. Passes in every other case. Every error has code 400 and the geo adapter's class. |
| `GeoService.CountryUnanchoredAtStart` | src/server/js/fetchGeoData.js:40-46 | The countries '9AB' and 'DUCK' pass the check. |
| `GeoService.CountryEndingInDigitFails` | src/server/js/fetchGeoData.js:40-46 | The country 'DE1' is rejected with the two-letter-code error. |
| `GeoService.BlankCountryUnchecked` | src/server/js/fetchGeoData.js:40 | A blank country is not checked. |
| `GeoService.GeoServiceUrl` | src/server/js/fetchGeoData.js:50-64 | The service reads back six parameters in order: username, lang=EN, maxRows=1, style=short, name, country. A left-out city or country becomes an empty value. |
| `GeoService.CityReachesService` | src/server/js/fetchGeoData.js:50-64 | After a passed check, the city and country reach the service unchanged, each in its own parameter, even when they hold `&`, `=`, `+` or non-ASCII code points. |
| `GeoService.GeoBodyOutcomeAsWritten` | src/server/js/fetchGeoData.js:25-30 | The body check as written. It succeeds exactly when both result fields are present, and then returns the body unchanged. A body without them throws a TypeError exactly when its `status` is missing or `null`, or its `status.message` cannot be turned into text; a missing `status` gives 'Cannot read properties of undefined (reading 'message')'. A `status.message` that cannot be turned into text throws 'Cannot convert object to primitive value'. Any other such body gives 'Geo service responded with message: ' followed by `status.message`, or by nothing when that is missing or null. |
| `GeoService.GeoBodyOutcome` | src/server/js/fetchGeoData.js:25-30 | The corrected body check. It succeeds exactly when both result fields are present, and then returns the body unchanged. Any other non-null body gives the 'Geo service responded with message: ' error exactly when its `status.message` can be turned into text, and otherwise the conversion TypeError. |
| `GeoService.HandleGeoReply` | src/server/js/fetchGeoData.js:16-30 | A network failure propagates. A non-ok status gives the HTTP error naming the status, with no body read. An ok reply reads the JSON body once and checks it as written: a body without result fields and without `status` throws a TypeError. The call succeeds only for an ok reply with a JSON body holding both result fields, and returns that body. |
| `GeoService.HandleGeoReplyCorrected` | src/server/js/fetchGeoData.js:16-30 | The reply handling with the corrected body check. It differs from the as-written handling only for a parsed ok body. A non-null ok body that lacks the result fields ends in a TypeError exactly when its `status.message` cannot be turned into text, and then it is the conversion error. A missing or null `status` never throws. |
| `GeoService.FetchGeoData` | src/server/js/fetchGeoData.js:5-31 | A failed check rejects with the ValidationError before any request. Otherwise exactly one request goes out, to the URL of `getGeoServiceUrl`, and its reply, handled as written, decides the result. |
| `GeoService.FetchGeoDataCorrected` | src/server/js/fetchGeoData.js:5-31 | The call with the corrected body check. It sends the same requests, and after a passed check its reply is handled by the corrected handling. |
| `GeoService.ValidationPrecedesFetch` | src/server/js/fetchGeoData.js:11-17 | When the check throws, no request is issued and the reply cannot influence the result. |
| `GeoService.HttpErrorNamesStatus` | src/server/js/fetchGeoData.js:18-23 | After a passed check, a non-ok reply rejects, and the digits after the error prefix read back as the HTTP status. |
| `GeoService.MissingStatusAsWritten` | src/server/js/fetchGeoData.js:26-29 | For a valid city and country, an HTTP 200 reply with body `{}` makes the call fail with a TypeError. The corrected call gives the service-message error instead. |
| `GeoService.BodyOutcomesAgreeWithStatus` | src/server/js/fetchGeoData.js:26-29 | Whenever the body has a non-null `status`, the as-written and corrected checks agree. |
| `GeoService.CorrectionOnlyForUnreadableStatus` | src/server/js/fetchGeoData.js:25-30 | The corrected call and the call as written give the same run, except on an ok body without result fields whose `status` is missing or `null`. |
| `GeoService.OwnToStringThrows` | src/server/js/fetchGeoData.js:28 | A body `{"status":{"message":{"toString":1}}}` makes both checks throw the conversion TypeError. |
| `GeoService.CorrectedBodyOnlyConversionThrows` | src/server/js/fetchGeoData.js:26-29 | With the correction, a non-null body whose `status.message` can be turned into text never yields a TypeError. Otherwise, when the body has no result fields, it yields the conversion TypeError. The message carries `status.message` when that is a string. |
| `ImageService.LocationTooLongNames91` | src/server/js/fetchImageData.js:45-51 | The length error names the budget 100 − length('+landmark') = 91 characters. |
| `ImageService.CheckParams` | src/server/js/fetchImageData.js:39-52 | Throws the empty-location error exactly when the location is missing or blank. Throws the too-long error exactly when it is non-blank and its UTF-16 length exceeds 91. Passes otherwise. Both errors have code 400 and the shared class. |
| `ImageService.LengthLimitInCodePoints` | src/server/js/fetchImageData.js:45 | For a location without code points above U+FFFF, the check passes exactly when it has at most 91 code points. |
| `ImageService.AstralCodePointsCountTwice` | src/server/js/fetchImageData.js:45 | 46 copies of a code point above U+FFFF (92 UTF-16 units) are rejected. |
| `ImageService.ImageServiceUrl` | src/server/js/fetchImageData.js:54-67 | The service reads back six parameters in order: key, q, image_type=photo, lang=EN, page=1, per_page=3. `q` is the location followed by '+landmark', where the plus is a literal plus and not a space. |
| `ImageService.ExtractErrorMessage` | src/server/js/fetchImageData.js:31-37 | The message is the body text. If reading the text fails, it is 'no particular error message'. |
| `ImageService.HandleImageReply` | src/server/js/fetchImageData.js:19-28 | A network failure propagates. A non-ok reply is read as text only, and rejects with 'Image service responded with ' plus that text. An ok reply is read as JSON only, and yields the body or the parse error. |
| `ImageService.FetchImageData` | src/server/js/fetchImageData.js:9-29 | A failed check rejects before any request. Otherwise one request goes out, to the URL of `getImageServiceUrl`, and its reply decides the result. |
| `ImageService.UnreadBodyIrrelevant` | src/server/js/fetchImageData.js:22-28 | The text of an ok reply and the JSON of a failed reply never influence the result. |
| `ImageService.SuccessMeansOkJson` | src/server/js/fetchImageData.js:9-29 | A call is fulfilled exactly when the location is valid, the reply is ok and its body is JSON. Its value is then that body. |
| `WeatherService.WeatherServiceUrl` | src/server/js/fetchWeatherData.js:21-24 | The URL starts with the fixed endpoint and `?zip=`. The zip follows verbatim at that fixed offset, then `&units=`, the units verbatim, `&appid=` and the key verbatim, with nothing else. When zip, units and key need no escaping, the query is exactly what the standard serializer writes for zip, units and appid. |
| `WeatherService.PlainValuesReachService` | src/server/js/fetchWeatherData.js:21-24 | When no value holds `&`, `+`, `%` or `#`, the service reads back exactly the three fields zip, units and appid, with their values unchanged. This covers the usual zip '94040,us' and any spaces or non-ASCII text. |
| `WeatherService.AmpersandInZipTruncates` | src/server/js/fetchWeatherData.js:23 | Nothing is escaped, so a zip containing `&` reaches the service only up to its first `&`. The part before it holds no `#`, which would start a fragment. |
| `WeatherService.HandleWeatherReply` | src/server/js/fetchWeatherData.js:15-17 | A network failure propagates. Any response, whatever its status, is read as JSON, and yields the body or the parse error. |
| `WeatherService.FetchWeatherData` | src/server/js/fetchWeatherData.js:9-18 | One request to the default-built URL, with units 'metric' and the configured key. The reply is handled as above. |
| `WeatherService.StatusIgnored` | src/server/js/fetchWeatherData.js:15-17 | The HTTP status and the text body never change the result: an error reply's JSON comes back as data. |
| `WeatherService.DefaultRequestFields` | src/server/js/fetchWeatherData.js:9-24 | For a zip and key free of `&`, `+`, `%` and `#`, the service reads zip, units=metric and appid=key. |
| `AggregateData.AtMidnight` | src/client/js/aggregateData.js:27-28 | `setHours(0, 0, 0, 0)` keeps the calendar day and lands on its first millisecond. An invalid date stays invalid. |
| `AggregateData.DurationOfMidnights` | src/client/js/aggregateData.js:29-33 | The millisecond arithmetic gives NaN for an invalid date. Otherwise it gives 1 for the same day, and d + sign(d) for a day difference d ≠ 0. |
| `AggregateData.CalculateDurationDays` | src/client/js/aggregateData.js:22-34 | A missing date gives 'unavailable' and touches nothing. A start without `setHours` throws a TypeError before any mutation. An end without `setHours` throws after the start was set to midnight. Two dates are both left at midnight, and the result is NaN exactly when one is invalid. |
| `AggregateData.DurationCountsCalendarDays` | src/client/js/aggregateData.js:22-34 | For two valid dates, the result is the signed number of calendar days the trip touches, both ends included, counted as a set of days. |
| `AggregateData.TimeOfDayIrrelevant` | src/client/js/aggregateData.js:27-29 | Only the calendar days matter, not the time of day. |
| `AggregateData.SameDayIsOneDay` | src/client/js/aggregateData.js:30-32 | Two dates on the same day give 1. |
| `AggregateData.NeverZeroOrMinusOne` | src/client/js/aggregateData.js:30-33 | Two valid dates never give 0 or −1. The result is positive exactly when the return day is not before the departure day. |
| `AggregateData.SwapNegates` | src/client/js/aggregateData.js:33 | Swapping dates on different days negates the result. |
| `AggregateData.RecalculateIsStable` | src/client/js/aggregateData.js:27-28 | A second call on the mutated arguments gives the same result and changes nothing. |
| `AggregateData.BuildForecastData` | src/client/js/aggregateData.js:36-45 | The forecast record's description is 'unavailable'. |
| `AggregateData.BuildImageData` | src/client/js/aggregateData.js:47-55 | The image record's url is 'unavailable'. |
| `AggregateData.PlaceholdersIgnorePayloads` | src/client/js/aggregateData.js:36-55 | The forecast and image records are the same whatever raw payloads are passed. |
| `AggregateData.BuildTripData` | src/client/js/aggregateData.js:2-20 | The promise rejects exactly when the duration call throws, and then with its error. Whether it rejects or not, the caller's date arguments end as the duration call left them. If it does not reject: city and country are kept unless null or undefined, which become 'unavailable'. Each date is the clock value exactly when it was missing. Otherwise it is the argument itself, as the duration call left it. The duration is the duration call's result, and forecast and image are the placeholders. |
| `AggregateData.TripDatesNormalized` | src/client/js/aggregateData.js:13-15 | With two valid dates, the stored dates are the argument objects left at midnight of their own days. The duration counts the calendar days. |
| `AggregateData.RejectionAfterStartMutated` | src/client/js/aggregateData.js:15-28 | With a valid departure date and a return that is not a date, the promise rejects with the TypeError, yet the caller's departure date has already been moved to midnight. |
| `AggregateData.EmptyNamesKept` | src/client/js/aggregateData.js:11-14 | An empty city stays empty, a null country becomes 'unavailable', and a missing return date gives an 'unavailable' duration and the clock value. |

## Findings

| source | as written | input that shows it | evidently intended | confidence | as-written member | corrected member |
|---|---|---|---|---|---|---|
| src/server/js/fetchGeoData.js:26-29 | `result.status.message ?? ''` reads `message` of `status` even when the body has no `status` | an HTTP 200 reply whose JSON body is `{}` | reject with 'Geo service responded with message: ' (the `?? ''` shows a missing message was expected), not with a TypeError | not executed; medium | `GeoService.MissingStatusAsWritten` | `GeoService.CorrectedBodyOnlyConversionThrows` |

The as-written check is `GeoService.GeoBodyOutcomeAsWritten`.
`GeoService.HandleGeoReply` and `GeoService.FetchGeoData` use it, so they
model the call as it behaves. The corrected check is
`GeoService.GeoBodyOutcome`. `GeoService.HandleGeoReplyCorrected` and
`GeoService.FetchGeoDataCorrected` use it.
`GeoService.CorrectionOnlyForUnreadableStatus` shows that the two calls
differ only on bodies whose `status` is missing or `null`.

## Where the code and its tests disagree

The model follows the code. Where the tests expect something else:

- `__test__/server/js/fetchGeoData.test.js:54-64` expects the country '9AB'
  to be rejected. The pattern is anchored only at the end, so '9AB' passes
  (`GeoService.CountryUnanchoredAtStart`).
- The geo tests expect errors that are instances of the shared
  `ValidationError`. The geo adapter throws its own copy of the class
  (`ValidationErrors.GeoCopyIsDistinctClass`).
- `__test__/client/js/aggregateData.test.js:11-23` calls
  `calculateDurationDays` with strings and expects 0 for missing or
  unparseable dates. The code throws a TypeError for any argument without
  `setHours`, and returns 'unavailable' for `null` and `undefined`.
- `__test__/client/js/aggregateData.test.js:167-179` expects `buildTripData`
  to give `''` for city, country and both dates, a duration of 0, a
  `forecasts` key and `image: {}` for `null` and `undefined` inputs. The code
  gives 'unavailable' for city and country and for the duration, the clock
  values for the dates, and a `forecast` key holding a placeholder
  (`AggregateData.EmptyNamesKept`, `AggregateData.BuildTripData`). The test
  that follows passes string dates, for which the code rejects with a
  TypeError.
- The tests of `buildForecastData` and `buildImageData` expect compacted
  records, or `[]` and `{}`. The code returns fixed placeholders.
- The weather tests call `getWeatherServiceUrl` with latitude, longitude,
  base URL and key, and expect parameter validation. The code exports only
  `fetchWeatherData`, takes a zip, validates nothing and builds the URL as a
  template string.
- `collectTravelInfo`, forecast compaction and windowing, and the `/trips`
  store appear only in tests. They are not part of this model.

## Left out

- URL parsing of the configured base: the base URL is assumed to be an
  absolute URL without query or fragment. An invalid base makes `new URL`
  throw, and that path is not modelled.
- Environment loading (`dotenv`, `process.env`): the configured values are
  parameters.
- `console.debug` logging, which has no effect on results.
- The injectable `check` and `getServiceUrl` parameters: only their defaults
  are modelled.
- `server.js` routes, `client.js` and the client fetch wrappers: these are UI
  and wiring, not part of this model.
- Non-string values for city, country, location and the weather zip
  (numbers, objects): these arguments are modelled as strings, `null` or
  `undefined`. The zip comes from a JSON request body, so the server can
  receive any JSON value there.
- Time zones with daylight saving time, and the limits of the `Date` range:
  local time has a fixed offset and time values are unbounded integers.
- `Date.now()`: the clock readings are parameters of
  `AggregateData.BuildTripData`.
- Built-in properties of JSON arrays and primitives (such as `length`): only
  the own members of objects are readable. None of the keys the adapters read
  is such a property.
- Number formatting: JSON numbers are kept as the text JavaScript prints for
  them.
- `FormUrlencoded.Parse`: handles invalid UTF-8 after percent-decoding by a
  simplified replacement rule. Serialized output never contains invalid
  UTF-8, so the round trip is unaffected.
- How `fetch` parses the literal weather URL before sending it. The model
  treats the template string as the query the service receives. A real URL
  parser cuts the query at `#` and drops tabs and newlines. It also
  percent-encodes spaces, quotes and non-ASCII code points, which the service
  decodes back to the same text. Before any of that, it strips leading and
  trailing C0 control characters and spaces from the whole URL. So a
  configured key that ends in a space loses that space, because the key is
  the last value of the template.
- JavaScript strings may hold lone surrogates, but a Dafny `char` is a
  Unicode scalar value and cannot represent them. So the model leaves out
  their effect on `length`, `trim`, and the U+FFFD replacement that
  `URLSearchParams` performs.
- `AggregateData.BuildForecastData`: its contract states only the
  description. The other placeholder fields are stated through
  `AggregateData.PlaceholdersIgnorePayloads` and the body.
- `AggregateData.BuildImageData`: its contract states only the url, as for
  the forecast.

=== FILE: aggregate_data.dfy ===
/**
 * The client's trip builder: the inclusive day count between two dates,
 * and the trip record assembled from the user's input, that count and two
 * placeholder records standing in for the forecast and the image.
 *
 * Dates are JavaScript `Date` objects in a local time zone with a fixed
 * offset: a date is its local time value in milliseconds, and the calendar
 * day it falls on is that value divided by the length of a day, rounded
 * down.
 */
module AggregateData {
  import opened JsCore
  import opened JsonValues
  import opened JsErrors

  const MS_PER_DAY := 1000 * 60 * 60 * 24

  /** A `Date` object: a local time value, or the invalid date. */
  datatype JsDate = DateValue(localMs: int) | InvalidDate

  /** An argument in a date position: a `Date` object, or any other value
      (a string, a number, a plain object), none of which has `setHours`. */
  datatype DateArg = DateObject(date: JsDate) | NonDate(shown: string)

  /** What `calculateDurationDays` returns. */
  datatype Duration = Unavailable | Days(n: int) | NotANumber

  /** How a synchronous call ends. */
  datatype Completion<T> = Normal(value: T) | Threw(error: JsError)

  /** The result of a `calculateDurationDays` call, together with the state
      of its two arguments afterwards: it mutates the `Date` objects it is
      given. */
  datatype DurationCall = DurationCall(result: Completion<Duration>,
                                       start: Maybe<DateArg>, end: Maybe<DateArg>)

  /** The calendar day a time value falls on. */
  function Day(t: int): int {
    t / MS_PER_DAY
  }

  /** `date.setHours(0, 0, 0, 0)`: the start of the same local day. An
      invalid date stays invalid. */
  function AtMidnight(d: JsDate): (r: JsDate)
    ensures d.InvalidDate? <==> r.InvalidDate?
    ensures d.DateValue? ==> Day(r.localMs) == Day(d.localMs) && r.localMs % MS_PER_DAY == 0
  {
    match d
    case DateValue(t) => DateValue(t - t % MS_PER_DAY)
    case InvalidDate => InvalidDate
  }

  /** `Math.sign`. */
  function Sign(x: int): int {
    if x > 0 then 1 else if x < 0 then -1 else 0
  }

  /** `endDate - startDate` after both were set to midnight, and the rest of
      the computation: a zero difference is one day, any other is the number
      of days between them plus one in the direction of its sign. */
  function DurationOfMidnights(start: JsDate, end: JsDate): (r: Duration)
    requires start.DateValue? ==> start.localMs % MS_PER_DAY == 0
    requires end.DateValue? ==> end.localMs % MS_PER_DAY == 0
    ensures start.InvalidDate? || end.InvalidDate? <==> r.NotANumber?
    ensures start.DateValue? && end.DateValue? ==>
              var d := Day(end.localMs) - Day(start.localMs);
              r == Days(if d == 0 then 1 else d + Sign(d))
  {
    if start.InvalidDate? || end.InvalidDate? then NotANumber
    else
      var diffMillis := end.localMs - start.localMs;
      if diffMillis == 0 then Days(1)
      else Days(diffMillis / MS_PER_DAY + Sign(diffMillis) * 1)
  }

  const START_NOT_A_DATE := "startDate.setHours is not a function"
  const END_NOT_A_DATE := "endDate.setHours is not a function"

  /** `calculateDurationDays(startDate, endDate)`. */
  function CalculateDurationDays(startDate: Maybe<DateArg>, endDate: Maybe<DateArg>): (c: DurationCall)
    // A missing date gives 'unavailable', and neither argument is touched.
    ensures startDate.IsNullish() || endDate.IsNullish() ==>
              c == DurationCall(Normal(Unavailable), startDate, endDate)
    // A start without `setHours` throws before anything is mutated.
    ensures !startDate.IsNullish() && !endDate.IsNullish() && startDate.value.NonDate? ==>
              c == DurationCall(Threw(TypeError(START_NOT_A_DATE)), startDate, endDate)
    // An end without `setHours` throws after the start was set to midnight.
    ensures !startDate.IsNullish() && !endDate.IsNullish()
            && startDate.value.DateObject? && endDate.value.NonDate? ==>
              c == DurationCall(Threw(TypeError(END_NOT_A_DATE)),
                                Defined(DateObject(AtMidnight(startDate.value.date))), endDate)
    // Two dates: both are left at midnight and the result is a number.
    ensures !startDate.IsNullish() && !endDate.IsNullish()
            && startDate.value.DateObject? && endDate.value.DateObject? ==>
              && c.start == Defined(DateObject(AtMidnight(startDate.value.date)))
              && c.end == Defined(DateObject(AtMidnight(endDate.value.date)))
              && c.result.Normal?
              && (c.result.value.NotANumber? <==> startDate.value.date.InvalidDate? || endDate.value.date.InvalidDate?)
  {
    if startDate.IsNullish() || endDate.IsNullish() then
      DurationCall(Normal(Unavailable), startDate, endDate)
    else if startDate.value.NonDate? then
      DurationCall(Threw(TypeError(START_NOT_A_DATE)), startDate, endDate)
    else
      var start := AtMidnight(startDate.value.date);
      if endDate.value.NonDate? then
        DurationCall(Threw(TypeError(END_NOT_A_DATE)), Defined(DateObject(start)), endDate)
      else
        var end := AtMidnight(endDate.value.date);
        DurationCall(Normal(DurationOfMidnights(start, end)), Defined(DateObject(start)), Defined(DateObject(end)))
  }

  /** The duration of two valid dates given by their time values. */
  function DurationOf(s: int, e: int): Duration {
    CalculateDurationDays(Defined(DateObject(DateValue(s))), Defined(DateObject(DateValue(e)))).result.value
  }

  /* ---------------------------------------------------------------- */
  /* The reference: counting calendar days.                            */

  /** The calendar days from `a` to `b`, both included. */
  ghost function DaysFromTo(a: int, b: int): set<int>
    decreases b - a
  {
    if a > b then {} else {a} + DaysFromTo(a + 1, b)
  }

  lemma {:induction false} DaysFromToMembers(a: int, b: int, k: int)
    ensures k in DaysFromTo(a, b) <==> a <= k <= b
    decreases b - a
  {
    if a <= b {
      DaysFromToMembers(a + 1, b, k);
    }
  }

  lemma {:induction false} DaysFromToSize(a: int, b: int)
    ensures |DaysFromTo(a, b)| == if a <= b then b - a + 1 else 0
    decreases b - a
  {
    if a <= b {
      DaysFromToSize(a + 1, b);
      DaysFromToMembers(a + 1, b, a);
    }
  }

  /** The number of calendar days a trip from day `a` to day `b` touches,
      departure and return day included; negative when `b` comes first. */
  ghost function InclusiveDays(a: int, b: int): int {
    if a <= b then |DaysFromTo(a, b)| else -|DaysFromTo(b, a)|
  }

  /** The duration of two valid dates is the signed number of calendar days
      the trip touches. */
  lemma DurationCountsCalendarDays(s: int, e: int)
    ensures DurationOf(s, e) == Days(InclusiveDays(Day(s), Day(e)))
  {
    DaysFromToSize(Day(s), Day(e));
    DaysFromToSize(Day(e), Day(s));
  }

  /** Only the calendar day matters, not the time of day. */
  lemma TimeOfDayIrrelevant(s1: int, s2: int, e1: int, e2: int)
    requires Day(s1) == Day(s2) && Day(e1) == Day(e2)
    ensures DurationOf(s1, e1) == DurationOf(s2, e2)
  {
  }

  /** Two dates on one calendar day make a one-day trip. */
  lemma SameDayIsOneDay(s: int, e: int)
    requires Day(s) == Day(e)
    ensures DurationOf(s, e) == Days(1)
  {
  }

  /** With two valid dates the result is never 0 and never -1: a trip
      touches at least one day, and the count grows with the gap. */
  lemma NeverZeroOrMinusOne(s: int, e: int)
    ensures DurationOf(s, e).Days?
    ensures DurationOf(s, e).n != 0 && DurationOf(s, e).n != -1
    ensures Day(s) <= Day(e) <==> DurationOf(s, e).n >= 1
  {
  }

  /** Swapping two dates on different days negates the result; on the same
      day both orders give 1. */
  lemma SwapNegates(s: int, e: int)
    ensures Day(s) != Day(e) ==> DurationOf(e, s).n == -DurationOf(s, e).n
    ensures Day(s) == Day(e) ==> DurationOf(e, s) == DurationOf(s, e) == Days(1)
  {
  }

  /** Calling again on the mutated arguments gives the same result and
      changes nothing further. */
  lemma RecalculateIsStable(startDate: Maybe<DateArg>, endDate: Maybe<DateArg>)
    requires CalculateDurationDays(startDate, endDate).result.Normal?
    ensures var c := CalculateDurationDays(startDate, endDate);
            CalculateDurationDays(c.start, c.end) == c
  {
    var c := CalculateDurationDays(startDate, endDate);
    if !startDate.IsNullish() && !endDate.IsNullish() {
      var s := startDate.value.date;
      var e := endDate.value.date;
      if s.DateValue? {
        assert AtMidnight(AtMidnight(s)) == AtMidnight(s);
      }
      if e.DateValue? {
        assert AtMidnight(AtMidnight(e)) == AtMidnight(e);
      }
    }
  }

  /* ---------------------------------------------------------------- */
  /* The trip record.                                                  */

  /** The forecast record `buildForecastData` returns. */
  datatype Forecast = Forecast(datetime: string, maxTemp: int, minTemp: int, icon: string,
                               code: int, description: string)

  /** The image record `buildImageData` returns. */
  datatype Image = Image(url: string, width: int, height: int, user: string)

  /** A stored date: the argument object as the duration call left it, or
      the number `Date.now()` returned when the argument was missing. */
  datatype Stamp = Given(arg: DateArg) | ClockValue(ms: int)

  datatype Trip = Trip(city: string, country: string, departureDate: Stamp, returnDate: Stamp,
                       duration: Duration, forecast: Forecast, image: Image)

  const UNAVAILABLE := "unavailable"

  /** `buildForecastData(rawWeatherData)`: a fixed record; the weather
      payload is not read. */
  function BuildForecastData(rawWeatherData: Maybe<Json>): (f: Forecast)
    ensures f.description == UNAVAILABLE
  {
    Forecast("2020-09-28", 0, 0, "x01x", 111, UNAVAILABLE)
  }

  /** `buildImageData(rawImageData)`: a fixed record; the image payload is
      not read. */
  function BuildImageData(rawImageData: Maybe<Json>): (i: Image)
    ensures i.url == UNAVAILABLE
  {
    Image(UNAVAILABLE, 0, 0, "unknown user")
  }

  /** Whatever the payloads, the forecast and the image are the same. */
  lemma PlaceholdersIgnorePayloads(w1: Maybe<Json>, w2: Maybe<Json>, i1: Maybe<Json>, i2: Maybe<Json>)
    ensures BuildForecastData(w1) == BuildForecastData(w2)
    ensures BuildImageData(i1) == BuildImageData(i2)
  {
  }

  /** `date ?? Date.now()` once the duration call has run: the argument
      object (mutated in place by that call), or the clock. */
  function StoredDate(after: Maybe<DateArg>, now: int): Stamp {
    if after.IsNullish() then ClockValue(now) else Given(after.value)
  }

  /** A `buildTripData` call: how its promise settles, and the date
      arguments as the caller holds them afterwards. */
  datatype TripCall = TripCall(promise: Settled<Trip>,
                               departureDate: Maybe<DateArg>, returnDate: Maybe<DateArg>)

  /** `buildTripData(city, country, departureDate, returnDate, raw...)`.
      `nowDeparture` and `nowReturn` are what the two `Date.now()` calls
      return; a thrown error rejects the returned promise. */
  function BuildTripData(city: Maybe<string>, country: Maybe<string>,
                         departureDate: Maybe<DateArg>, returnDate: Maybe<DateArg>,
                         rawGeoData: Maybe<Json>, rawWeatherData: Maybe<Json>, rawImageData: Maybe<Json>,
                         nowDeparture: int, nowReturn: int): (call: TripCall)
    ensures var c := CalculateDurationDays(departureDate, returnDate);
            && (c.result.Threw? ==> call.promise == Rejected(c.result.error))
            && (c.result.Normal? <==> call.promise.Fulfilled?)
    // Whether the promise is fulfilled or rejected, the caller's dates are
    // left as the duration call left them.
    ensures var c := CalculateDurationDays(departureDate, returnDate);
            call.departureDate == c.start && call.returnDate == c.end
    ensures call.promise.Fulfilled? ==>
              var t := call.promise.value;
              && (city.Defined? ==> t.city == city.value)
              && (city.IsNullish() ==> t.city == UNAVAILABLE)
              && (country.Defined? ==> t.country == country.value)
              && (country.IsNullish() ==> t.country == UNAVAILABLE)
              && (departureDate.IsNullish() <==> t.departureDate == ClockValue(nowDeparture))
              && (returnDate.IsNullish() <==> t.returnDate == ClockValue(nowReturn))
              && t.duration == CalculateDurationDays(departureDate, returnDate).result.value
              && t.forecast == BuildForecastData(Undefined)
              && t.image == BuildImageData(Undefined)
    // A given date is stored as the very argument, as the duration call
    // left it (at midnight when it is a date).
    ensures call.promise.Fulfilled? && !departureDate.IsNullish() ==>
              call.departureDate.Defined? && call.promise.value.departureDate == Given(call.departureDate.value)
    ensures call.promise.Fulfilled? && !returnDate.IsNullish() ==>
              call.returnDate.Defined? && call.promise.value.returnDate == Given(call.returnDate.value)
  {
    var c := CalculateDurationDays(departureDate, returnDate);
    match c.result
    case Threw(e) => TripCall(Rejected(e), c.start, c.end)
    case Normal(duration) =>
      TripCall(
        Fulfilled(Trip(
          Coalesce(city, UNAVAILABLE),
          Coalesce(country, UNAVAILABLE),
          StoredDate(c.start, nowDeparture),
          StoredDate(c.end, nowReturn),
          duration,
          BuildForecastData(WithDefault(rawWeatherData, JObject(map[]))),
          BuildImageData(WithDefault(rawImageData, JObject(map[]))))),
        c.start, c.end)
  }

  /** A trip between two valid dates stores both dates at midnight of their
      own day, and its duration counts the calendar days it touches. */
  lemma TripDatesNormalized(city: Maybe<string>, country: Maybe<string>, s: int, e: int,
                            raw: Maybe<Json>, nowDeparture: int, nowReturn: int)
    ensures var r := BuildTripData(city, country, Defined(DateObject(DateValue(s))),
                                   Defined(DateObject(DateValue(e))), raw, raw, raw,
                                   nowDeparture, nowReturn).promise;
            && r.Fulfilled?
            && r.value.departureDate.Given? && r.value.departureDate.arg.date.DateValue?
            && r.value.departureDate.arg.date.localMs == Day(s) * MS_PER_DAY
            && r.value.returnDate.Given? && r.value.returnDate.arg.date.DateValue?
            && r.value.returnDate.arg.date.localMs == Day(e) * MS_PER_DAY
            && r.value.duration == Days(InclusiveDays(Day(s), Day(e)))
  {
    DurationCountsCalendarDays(s, e);
  }

  /** A valid departure date with a return that is not a date: the promise
      rejects, yet the caller's departure date has already been moved to
      midnight. */
  lemma RejectionAfterStartMutated(s: int, shown: string, raw: Maybe<Json>,
                                   nowDeparture: int, nowReturn: int)
    ensures var call := BuildTripData(Undefined, Undefined, Defined(DateObject(DateValue(s))),
                                      Defined(NonDate(shown)), raw, raw, raw, nowDeparture, nowReturn);
            && call.promise == Rejected(TypeError(END_NOT_A_DATE))
            && call.departureDate == Defined(DateObject(DateValue(Day(s) * MS_PER_DAY)))
            && call.returnDate == Defined(NonDate(shown))
  {
  }

  /** An empty city or country is kept: only `null` and `undefined` become
      'unavailable'. A missing date makes the duration unavailable. */
  lemma EmptyNamesKept(departureDate: Maybe<DateArg>, nowDeparture: int, nowReturn: int)
    ensures var r := BuildTripData(Defined(""), Null, departureDate, Undefined,
                                   Undefined, Undefined, Undefined, nowDeparture, nowReturn).promise;
            && r.Fulfilled?
            && r.value.city == "" && r.value.country == UNAVAILABLE
            && r.value.duration == Unavailable
            && r.value.returnDate == ClockValue(nowReturn)
  {
  }
}

=== FILE: exchange.dfy ===
/**
 * The single HTTP exchange an adapter performs, passed in as data instead of
 * being carried out: the request it issues and the reply `fetch` gives.
 */
module Exchange {
  import opened JsonValues
  import opened JsErrors
  import opened FormUrlencoded

  /** What `response.json()` settles to. */
  datatype JsonBody = Parsed(json: Json) | NotJson(cause: Cause)

  /** What `response.text()` settles to. */
  datatype TextBody = Text(text: string) | Unreadable(cause: Cause)

  /** What `fetch(url)` settles to: a rejection on network failure, or a
      response whose body can be read as JSON or as text. */
  datatype Reply =
    | NetworkFailure(cause: Cause)
    | Response(status: nat, json: JsonBody, text: TextBody)
  {
    /** `response.ok`: a status in the range 200 to 299. */
    predicate Ok() {
      Response? && 200 <= status < 300
    }
  }

  /** A request URL: a base with appended `URLSearchParams` pairs, or a
      string assembled by hand. */
  datatype Request = Query(base: string, pairs: seq<Pair>) | Literal(href: string)

  /** The query part of a structured request as `url.toString()` writes it. */
  function QueryString(r: Request): string
    requires r.Query?
  {
    Serialize(r.pairs)
  }

  /** `url.toString()`, for a base that carries no query or fragment. */
  function Href(r: Request): string {
    match r
    case Query(base, pairs) => if pairs == [] then base else base + "?" + Serialize(pairs)
    case Literal(href) => href
  }

  datatype BodyRead = ReadJson | ReadText

  /** What an adapter makes of the reply to its one request: the body
      readers it called, in order, and how its promise settled. */
  datatype Handling = Handling(bodyReads: seq<BodyRead>, outcome: Settled<Json>)

  /** One adapter call: the requests it issued, the body readers it called,
      in order, and how its promise settled. */
  datatype Run = Run(requests: seq<Request>, bodyReads: seq<BodyRead>, outcome: Settled<Json>)
}

=== FILE: fetch_geo_data.dfy ===
/**
 * The server's geo adapter: it checks the city and country a caller asks
 * for, appends them with fixed defaults to the geocoding endpoint, performs
 * one GET and turns the reply into the parsed body or an error.
 */
module GeoService {
  import opened JsCore
  import opened JsonValues
  import opened ValidationErrors
  import opened JsErrors
  import opened Exchange
  import opened FormUrlencoded

  const CITY_EMPTY := "Param 'city' must not be empty"
  const COUNTRY_NOT_A_CODE := "Param 'country' must be a two-letter-code"
  const HTTP_ERROR_PREFIX := "Geo service responded with HTTP error code "
  const MESSAGE_PREFIX := "Geo service responded with message: "

  /** The configured endpoint and account name (`GEO_URL`, `GEO_USERNAME`). */
  datatype GeoEnv = GeoEnv(baseUrl: string, username: Maybe<string>)

  /* ---------------------------------------------------------------- */
  /* Parameter check.                                                  */

  /** `!city || !city.trim()`, stated without `trim`. */
  predicate CityMissing(city: Maybe<string>) {
    city.IsNullish() || AllWhiteSpace(city.value)
  }

  /** `country && country.trim()`: the country check only runs for these. */
  predicate CountryGiven(country: Maybe<string>) {
    country.Defined? && !AllWhiteSpace(country.value)
  }

  predicate IsAsciiLetter(c: char) {
    ('A' <= c <= 'Z') || ('a' <= c <= 'z')
  }

  /** The last two code points are ASCII letters, in either case. */
  predicate EndsInTwoLetters(s: string) {
    |s| >= 2 && IsAsciiLetter(s[|s| - 2]) && IsAsciiLetter(s[|s| - 1])
  }

  /** The pattern `/[A-Z][A-Z]$/i` matches when started at position `i`:
      two letters (the `i` flag admits lower case, and without the `u` flag
      only ASCII letters fold onto A-Z) followed by the end of input. */
  predicate PatternMatchesAt(s: string, i: nat)
    requires i <= |s|
  {
    i + 2 == |s| && IsAsciiLetter(s[i]) && IsAsciiLetter(s[i + 1])
  }

  /** `String.prototype.match` tries every start position from `i` on. */
  predicate PatternFoundFrom(s: string, i: nat)
    requires i <= |s|
    decreases |s| - i
  {
    PatternMatchesAt(s, i) || (i < |s| && PatternFoundFrom(s, i + 1))
  }

  /** The pattern is anchored only at the end, so it accepts any string whose
      last two code points are letters: `'DUCK'` and `'9AB'` pass, `'DE '`
      does not. */
  lemma {:induction false} PatternFoundIffEndsInTwoLetters(s: string, i: nat)
    requires i <= |s|
    ensures PatternFoundFrom(s, i) <==> (i + 2 <= |s| && EndsInTwoLetters(s))
    decreases |s| - i
  {
    if i < |s| {
      PatternFoundIffEndsInTwoLetters(s, i + 1);
    }
  }

  lemma CheckFacts(city: Maybe<string>, country: Maybe<string>)
    ensures city.Defined? ==> (Trim(city.value) == [] <==> AllWhiteSpace(city.value))
    ensures country.Defined? ==> (Trim(country.value) == [] <==> AllWhiteSpace(country.value))
    ensures country.Defined? ==> (PatternFoundFrom(country.value, 0) <==> EndsInTwoLetters(country.value))
  {
    TrimEmptyIffAllWhiteSpaceWhenDefined(city);
    TrimEmptyIffAllWhiteSpaceWhenDefined(country);
    if country.Defined? {
      PatternFoundIffEndsInTwoLetters(country.value, 0);
    }
  }

  /** `checkParams(city, country)`. */
  function CheckParams(city: Maybe<string>, country: Maybe<string>): (r: Check)
    ensures r.Thrown? ==> r.error.origin == GeoServiceClass && r.error.statusCode == 400
    ensures r == Thrown(NewValidationError(GeoServiceClass, 400, CITY_EMPTY)) <==> CityMissing(city)
    ensures r == Thrown(NewValidationError(GeoServiceClass, 400, COUNTRY_NOT_A_CODE))
            <==> !CityMissing(city) && CountryGiven(country) && !EndsInTwoLetters(country.value)
    ensures r.Passed? <==> !CityMissing(city) && (CountryGiven(country) ==> EndsInTwoLetters(country.value))
  {
    CheckFacts(city, country);
    if !city.Defined? || city.value == "" || Trim(city.value) == "" then
      Thrown(NewValidationError(GeoServiceClass, 400, CITY_EMPTY))
    else if country.Defined? && country.value != "" && Trim(country.value) != "" then
      if PatternFoundFrom(country.value, 0) then Passed
      else Thrown(NewValidationError(GeoServiceClass, 400, COUNTRY_NOT_A_CODE))
    else
      Passed
  }

  /** The pattern is anchored only at the end: `'9AB'` and `'DUCK'` pass. */
  lemma CountryUnanchoredAtStart(city: string)
    requires !AllWhiteSpace(city)
    ensures CheckParams(Defined(city), Defined("9AB")) == Passed
    ensures CheckParams(Defined(city), Defined("DUCK")) == Passed
  {
    NotBlank("9AB");
    NotBlank("DUCK");
  }

  /** A country ending in a digit fails the check. */
  lemma CountryEndingInDigitFails(city: string)
    requires !AllWhiteSpace(city)
    ensures CheckParams(Defined(city), Defined("DE1"))
            == Thrown(NewValidationError(GeoServiceClass, 400, COUNTRY_NOT_A_CODE))
  {
    NotBlank("DE1");
  }

  /** A blank country is not checked at all. */
  lemma BlankCountryUnchecked(city: string)
    requires !AllWhiteSpace(city)
    ensures CheckParams(Defined(city), Defined(" ")) == Passed
  {
    assert AllWhiteSpace(" ");
  }

  lemma NotBlank(s: string)
    requires |s| > 0 && (IsAsciiLetter(s[|s| - 1]) || IsDigit(s[|s| - 1]))
    ensures !AllWhiteSpace(s)
  {
    assert !IsWhiteSpace(s[|s| - 1]);
  }

  /* ---------------------------------------------------------------- */
  /* Request URL.                                                      */

  /** The six parameters the geocoding service receives, in order. */
  function GeoParameters(cityName: Maybe<string>, countryCode: Maybe<string>, env: GeoEnv): seq<Pair> {
    [ Pair("username", Show(env.username)),
      Pair("lang", "EN"),
      Pair("maxRows", "1"),
      Pair("style", "short"),
      Pair("name", Show(WithDefault(cityName, ""))),
      Pair("country", Show(WithDefault(countryCode, ""))) ]
  }

  /** `getGeoServiceUrl(cityName, countryCode)`: the service reads back exactly
      the six parameters, the city and country unchanged whatever code points
      they hold, an empty value for a left-out one. */
  function GeoServiceUrl(cityName: Maybe<string>, countryCode: Maybe<string>, env: GeoEnv): (req: Request)
    ensures req.Query? && req.base == env.baseUrl
    ensures Parse(QueryString(req)) == GeoParameters(cityName, countryCode, env)
  {
    var pairs := GeoParameters(cityName, countryCode, env);
    ParseSerialize(pairs);
    Query(env.baseUrl, pairs)
  }

  /* ---------------------------------------------------------------- */
  /* Reply translation.                                                */

  /** The body carries both result fields (whatever their values). */
  predicate HasResultFields(body: Json) {
    body.JObject? && "totalResultsCount" in body.members && "geonames" in body.members
  }

  /** `x ?? ''` inside a template literal, for a property just read: the
      text, or the TypeError of a value that cannot be converted. */
  function TextOrEmpty(p: Property): (c: Conversion)
    ensures !p.Present? || p.value.JNull? ==> c == Converted("")
    ensures p.Present? ==> (c.Converted? <==> Convertible(p.value))
  {
    if p.Present? && !p.value.JNull? then ToText(p.value) else Converted("")
  }

  /** The error `result.status.message` throws when `status` is missing. */
  const MISSING_STATUS := "Cannot read properties of undefined (reading 'message')"

  /** `status` is missing, or is `null`: reading its `message` throws. */
  predicate StatusUnreadable(body: Json) {
    match ReadProperty(body, "status")
    case Present(status) => status.JNull?
    case _ => true
  }

  /** A `status.message` that is present can be turned into text. */
  predicate MessageConvertible(body: Json) {
    var status := ReadProperty(body, "status");
    status.Present? ==>
      var message := ReadProperty(status.value, "message");
      message.Present? ==> Convertible(message.value)
  }

  /** The rejection for a readable, non-null `status`: the service message,
      unless its `message` cannot be turned into text. */
  function ServiceMessageError(status: Json): Settled<Json> {
    match TextOrEmpty(ReadProperty(status, "message"))
    case Converted(m) => Rejected(PlainError(MESSAGE_PREFIX + m))
    case NotPrimitive => Rejected(TypeError(NOT_PRIMITIVE))
  }

  /** The check of an ok body as the code writes it: `result.status.message`
      reads `message` of whatever `status` is, so a body without result
      fields whose `status` is missing or null throws a TypeError. */
  function GeoBodyOutcomeAsWritten(body: Json): (r: Settled<Json>)
    ensures r.Fulfilled? <==> HasResultFields(body)
    ensures r.Fulfilled? ==> r.value == body
    ensures body.JNull? ==> r.Rejected? && r.error.TypeError?
    ensures !body.JNull? && !HasResultFields(body) ==>
              (r.Rejected? && r.error.TypeError? <==> StatusUnreadable(body) || !MessageConvertible(body))
    ensures !body.JNull? && !HasResultFields(body) && ReadProperty(body, "status").Absent? ==>
              r == Rejected(TypeError(MISSING_STATUS))
    ensures !body.JNull? && !HasResultFields(body) && !StatusUnreadable(body) && !MessageConvertible(body) ==>
              r == Rejected(TypeError(NOT_PRIMITIVE))
    ensures !body.JNull? && !HasResultFields(body) && !StatusUnreadable(body) && MessageConvertible(body) ==>
              r == Rejected(PlainError(MESSAGE_PREFIX +
                                       TextOrEmpty(ReadProperty(body.members["status"], "message")).s))
  {
    if body.JNull? then
      Rejected(TypeError("Cannot read properties of null (reading 'totalResultsCount')"))
    else if HasResultFields(body) then
      Fulfilled(body)
    else
      match ReadProperty(body, "status")
      case Present(status) =>
        if status.JNull? then Rejected(TypeError("Cannot read properties of null (reading 'message')"))
        else ServiceMessageError(status)
      case _ => Rejected(TypeError(MISSING_STATUS))
  }

  /** The check of an ok body with a missing or null `status` treated like a
      missing message (`result.status?.message ?? ''`). */
  function GeoBodyOutcome(body: Json): (r: Settled<Json>)
    ensures r.Fulfilled? <==> HasResultFields(body)
    ensures r.Fulfilled? ==> r.value == body
    ensures body.JNull? ==> r.Rejected? && r.error.TypeError?
    ensures !body.JNull? && !HasResultFields(body) ==>
              r.Rejected? && (r.error.PlainError? <==> MessageConvertible(body))
    ensures !body.JNull? && !HasResultFields(body) && MessageConvertible(body) ==>
              MESSAGE_PREFIX <= r.error.message
    ensures !body.JNull? && !HasResultFields(body) && !MessageConvertible(body) ==>
              r == Rejected(TypeError(NOT_PRIMITIVE))
  {
    if body.JNull? then
      Rejected(TypeError("Cannot read properties of null (reading 'totalResultsCount')"))
    else if HasResultFields(body) then
      Fulfilled(body)
    else
      var status := ReadProperty(body, "status");
      if status.Present? && !status.value.JNull? then ServiceMessageError(status.value)
      else Rejected(PlainError(MESSAGE_PREFIX))
  }

  /** The part of `fetchGeoData` after the request: how the reply to it is
      read and turned into the result, with the body check as written. */
  function HandleGeoReply(reply: Reply): (h: Handling)
    // A network failure propagates unchanged.
    ensures reply.NetworkFailure? ==> h == Handling([], Rejected(Propagated(reply.cause)))
    // A non-ok status fails with the status code; the body is not read.
    ensures reply.Response? && !reply.Ok() ==>
              h == Handling([], Rejected(PlainError(HTTP_ERROR_PREFIX + DecimalString(reply.status))))
    // An ok reply reads the body as JSON, once; a parse failure propagates.
    ensures reply.Ok() ==> h.bodyReads == [ReadJson]
    ensures reply.Ok() && reply.json.NotJson? ==> h.outcome == Rejected(Propagated(reply.json.cause))
    ensures reply.Ok() && reply.json.Parsed? ==> h.outcome == GeoBodyOutcomeAsWritten(reply.json.json)
    // An ok body without results and without `status` throws a TypeError.
    ensures reply.Ok() && reply.json.Parsed? && !reply.json.json.JNull?
            && !HasResultFields(reply.json.json) && ReadProperty(reply.json.json, "status").Absent? ==>
              h.outcome == Rejected(TypeError(MISSING_STATUS))
    // The only way to succeed: the body is returned as it came.
    ensures h.outcome.Fulfilled? <==> reply.Ok() && reply.json.Parsed? && HasResultFields(reply.json.json)
    ensures h.outcome.Fulfilled? ==> h.outcome.value == reply.json.json
  {
    match reply
    case NetworkFailure(cause) => Handling([], Rejected(Propagated(cause)))
    case Response(status, json, _) =>
      if !reply.Ok() then
        Handling([], Rejected(PlainError(HTTP_ERROR_PREFIX + DecimalString(status))))
      else
        match json
        case NotJson(cause) => Handling([ReadJson], Rejected(Propagated(cause)))
        case Parsed(body) => Handling([ReadJson], GeoBodyOutcomeAsWritten(body))
  }

  /** The reply handling with the corrected body check: only the reading
      of a parsed ok body changes. */
  function HandleGeoReplyCorrected(reply: Reply): (h: Handling)
    ensures !(reply.Ok() && reply.json.Parsed?) ==> h == HandleGeoReply(reply)
    ensures reply.Ok() && reply.json.Parsed? ==>
              h == Handling([ReadJson], GeoBodyOutcome(reply.json.json))
    // A non-null ok body ends in a TypeError only when `status.message`
    // cannot be turned into text; a missing or null `status` never throws.
    ensures reply.Ok() && reply.json.Parsed? && !reply.json.json.JNull? && h.outcome.Rejected? ==>
              && (h.outcome.error.TypeError? <==> !MessageConvertible(reply.json.json))
              && (h.outcome.error.TypeError? ==> h.outcome.error == TypeError(NOT_PRIMITIVE))
    ensures h.outcome.Fulfilled? <==> reply.Ok() && reply.json.Parsed? && HasResultFields(reply.json.json)
  {
    if reply.Ok() && reply.json.Parsed? then
      Handling([ReadJson], GeoBodyOutcome(reply.json.json))
    else
      HandleGeoReply(reply)
  }

  /** The run of `fetchGeoData(city, countryCode)`, given how the reply to
      its one request would be handled. */
  function GeoRun(city: Maybe<string>, countryCode: Maybe<string>, env: GeoEnv, h: Handling): (run: Run)
    // The check runs first; when it throws, nothing is fetched or read.
    ensures CityMissing(city) ==>
              run == Run([], [], Rejected(Validation(NewValidationError(GeoServiceClass, 400, CITY_EMPTY))))
    ensures !CityMissing(city) && CountryGiven(countryCode) && !EndsInTwoLetters(countryCode.value) ==>
              run == Run([], [], Rejected(Validation(NewValidationError(GeoServiceClass, 400, COUNTRY_NOT_A_CODE))))
    // Otherwise exactly one request goes out, carrying city and country,
    // and the handling of its reply decides the rest.
    ensures !CityMissing(city) && (CountryGiven(countryCode) ==> EndsInTwoLetters(countryCode.value)) ==>
              && run.requests == [GeoServiceUrl(city, WithDefault(countryCode, ""), env)]
              && Handling(run.bodyReads, run.outcome) == h
  {
    var c := WithDefault(city, "");
    var k := WithDefault(countryCode, "");
    match CheckParams(c, k)
    case Thrown(e) => Run([], [], Rejected(Validation(e)))
    case Passed => Run([GeoServiceUrl(c, k, env)], h.bodyReads, h.outcome)
  }

  /** `fetchGeoData(city, countryCode)` with `GEO_URL`/`GEO_USERNAME` from
      `env` and `reply` as the outcome of its one `fetch`. */
  function FetchGeoData(city: Maybe<string>, countryCode: Maybe<string>, env: GeoEnv, reply: Reply): (run: Run)
    ensures CityMissing(city) ==>
              run == Run([], [], Rejected(Validation(NewValidationError(GeoServiceClass, 400, CITY_EMPTY))))
    ensures !CityMissing(city) && CountryGiven(countryCode) && !EndsInTwoLetters(countryCode.value) ==>
              run == Run([], [], Rejected(Validation(NewValidationError(GeoServiceClass, 400, COUNTRY_NOT_A_CODE))))
    ensures !CityMissing(city) && (CountryGiven(countryCode) ==> EndsInTwoLetters(countryCode.value)) ==>
              && run.requests == [GeoServiceUrl(city, WithDefault(countryCode, ""), env)]
              && Handling(run.bodyReads, run.outcome) == HandleGeoReply(reply)
  {
    GeoRun(city, countryCode, env, HandleGeoReply(reply))
  }

  /** `fetchGeoData` with the corrected body check. */
  function FetchGeoDataCorrected(city: Maybe<string>, countryCode: Maybe<string>, env: GeoEnv,
                                 reply: Reply): (run: Run)
    ensures run.requests == FetchGeoData(city, countryCode, env, reply).requests
    ensures !CityMissing(city) && (CountryGiven(countryCode) ==> EndsInTwoLetters(countryCode.value)) ==>
              Handling(run.bodyReads, run.outcome) == HandleGeoReplyCorrected(reply)
    ensures CityMissing(city) || (CountryGiven(countryCode) && !EndsInTwoLetters(countryCode.value)) ==>
              run == FetchGeoData(city, countryCode, env, reply)
  {
    GeoRun(city, countryCode, env, HandleGeoReplyCorrected(reply))
  }

  /* ---------------------------------------------------------------- */
  /* Properties relating several calls.                                */

  /** A failed check decides the outcome before any request: the reply,
      whatever it would have been, plays no part. */
  lemma ValidationPrecedesFetch(city: Maybe<string>, countryCode: Maybe<string>, env: GeoEnv, r1: Reply, r2: Reply)
    requires CheckParams(WithDefault(city, ""), WithDefault(countryCode, "")).Thrown?
    ensures FetchGeoData(city, countryCode, env, r1) == FetchGeoData(city, countryCode, env, r2)
    ensures FetchGeoData(city, countryCode, env, r1).requests == []
  {
  }

  /** The HTTP status can be read back from the error message. */
  lemma HttpErrorNamesStatus(city: Maybe<string>, countryCode: Maybe<string>, env: GeoEnv, reply: Reply)
    requires reply.Response? && !reply.Ok()
    requires !CityMissing(city) && (CountryGiven(countryCode) ==> EndsInTwoLetters(countryCode.value))
    ensures FetchGeoData(city, countryCode, env, reply).outcome.Rejected?
    ensures var m := FetchGeoData(city, countryCode, env, reply).outcome.error.message;
            && HTTP_ERROR_PREFIX <= m
            && (forall i :: |HTTP_ERROR_PREFIX| <= i < |m| ==> IsDigit(m[i]))
            && DecimalValue(m[|HTTP_ERROR_PREFIX|..]) == reply.status
  {
    var m := HTTP_ERROR_PREFIX + DecimalString(reply.status);
    assert m[|HTTP_ERROR_PREFIX|..] == DecimalString(reply.status);
    DecimalRoundTrip(reply.status);
  }

  /** A city or country holding `&`, `=`, `+`, spaces or non-ASCII code points
      still reaches the service unchanged and in its own parameter. */
  lemma CityReachesService(city: string, country: string, env: GeoEnv)
    requires !AllWhiteSpace(city) && EndsInTwoLetters(country)
    ensures var run := FetchGeoData(Defined(city), Defined(country), env, NetworkFailure(Cause("offline")));
            && run.requests == [GeoServiceUrl(Defined(city), Defined(country), env)]
            && Parse(QueryString(run.requests[0])) ==
               [ Pair("username", Show(env.username)), Pair("lang", "EN"), Pair("maxRows", "1"),
                 Pair("style", "short"), Pair("name", city), Pair("country", country) ]
  {
  }

  /* ---------------------------------------------------------------- */
  /* The body check as written and as intended.                       */

  /** As written, an ok body without result fields and without `status`
      (here `{}`) fails with a TypeError instead of the service-message
      error that the corrected adapter gives. */
  lemma MissingStatusAsWritten(city: string, country: string, env: GeoEnv, text: TextBody)
    requires !AllWhiteSpace(city) && EndsInTwoLetters(country)
    ensures var reply := Response(200, Parsed(JObject(map[])), text);
            && FetchGeoData(Defined(city), Defined(country), env, reply).outcome ==
               Rejected(TypeError(MISSING_STATUS))
            && FetchGeoDataCorrected(Defined(city), Defined(country), env, reply).outcome ==
               Rejected(PlainError(MESSAGE_PREFIX))
  {
    var body := JObject(map[]);
    var reply := Response(200, Parsed(body), text);
    assert ReadProperty(body, "status").Absent? && !HasResultFields(body);
    assert HandleGeoReply(reply).outcome == Rejected(TypeError(MISSING_STATUS));
    assert MESSAGE_PREFIX + "" == MESSAGE_PREFIX;
    assert HandleGeoReplyCorrected(reply).outcome == Rejected(PlainError(MESSAGE_PREFIX));
  }

  /** A `status.message` object with its own `toString` member cannot be
      turned into text: both checks throw a TypeError for it. */
  lemma OwnToStringThrows()
    ensures var body := JObject(map["status" := JObject(map["message" := JObject(map["toString" := JNumber("1")])])]);
            && GeoBodyOutcomeAsWritten(body) == Rejected(TypeError(NOT_PRIMITIVE))
            && GeoBodyOutcome(body) == Rejected(TypeError(NOT_PRIMITIVE))
  {
  }

  /** The two versions differ only where `status` is missing or null. */
  lemma BodyOutcomesAgreeWithStatus(body: Json)
    requires body.JObject? && "status" in body.members && !body.members["status"].JNull?
    ensures GeoBodyOutcomeAsWritten(body) == GeoBodyOutcome(body)
  {
  }

  /** The corrected adapter differs from the one as written only on an ok
      body without results whose `status` is missing or null. */
  lemma CorrectionOnlyForUnreadableStatus(city: Maybe<string>, countryCode: Maybe<string>,
                                          env: GeoEnv, reply: Reply)
    requires !(reply.Ok() && reply.json.Parsed? && !reply.json.json.JNull?
               && !HasResultFields(reply.json.json) && StatusUnreadable(reply.json.json))
    ensures FetchGeoDataCorrected(city, countryCode, env, reply) == FetchGeoData(city, countryCode, env, reply)
  {
    if reply.Ok() && reply.json.Parsed? {
      var body := reply.json.json;
      if !body.JNull? && !HasResultFields(body) {
        BodyOutcomesAgreeWithStatus(body);
      }
    }
  }

  /** With the correction, a non-null ok body either succeeds, yields the
      service-message error, or throws only because its `status.message`
      cannot be turned into text; the message is the body's
      `status.message` when that is a string. */
  lemma CorrectedBodyOnlyConversionThrows(body: Json)
    requires !body.JNull?
    ensures MessageConvertible(body) ==>
              GeoBodyOutcome(body).Fulfilled? || GeoBodyOutcome(body).error.PlainError?
    ensures !MessageConvertible(body) && !HasResultFields(body) ==>
              GeoBodyOutcome(body) == Rejected(TypeError(NOT_PRIMITIVE))
    ensures !HasResultFields(body) && body.JObject? && "status" in body.members
            && body.members["status"].JObject? && "message" in body.members["status"].members
            && body.members["status"].members["message"].JString? ==>
              GeoBodyOutcome(body) ==
              Rejected(PlainError(MESSAGE_PREFIX + body.members["status"].members["message"].s))
  {
  }
}

=== FILE: fetch_image_data.dfy ===
/**
 * The server's image adapter: it checks the location a caller asks for,
 * searches the image service for landmark photos of it with one GET, and
 * turns the reply into the parsed body or an error.
 */
module ImageService {
  import opened JsCore
  import opened JsonValues
  import opened ValidationErrors
  import opened JsErrors
  import opened Exchange
  import opened FormUrlencoded

  /** The longest search query the image service accepts. */
  const QUERY_MAX_CHAR := 100
  /** Appended to every location so that landmark photos rank first. */
  const DEFAULT_SEARCH_TERM := "+landmark"

  const LOCATION_EMPTY := "Param 'location' must not be empty"
  const ERROR_PREFIX := "Image service responded with "
  const NO_MESSAGE := "no particular error message"

  /** The configured endpoint and key (`IMAGE_URL`, `IMAGE_API_KEY`). */
  datatype ImageEnv = ImageEnv(baseUrl: string, apiKey: Maybe<string>)

  /** The error message for an overlong location, with the remaining budget
      computed as the source computes it. */
  function LocationTooLong(): string {
    TOO_LONG_PREFIX + DecimalString(QUERY_MAX_CHAR - Utf16Length(DEFAULT_SEARCH_TERM)) + TOO_LONG_SUFFIX
  }

  const TOO_LONG_PREFIX := "Param 'location' must not exceed "
  const TOO_LONG_SUFFIX := " characters"
  const LOCATION_TOO_LONG_91 := TOO_LONG_PREFIX + "91" + TOO_LONG_SUFFIX

  /** The budget left for the location is 91 characters. */
  lemma LocationTooLongNames91()
    ensures LocationTooLong() == LOCATION_TOO_LONG_91
  {
    SearchTermIsNineUnits();
    NinetyOneRendered();
  }

  lemma SearchTermIsNineUnits()
    ensures Utf16Length(DEFAULT_SEARCH_TERM) == 9
  {
    assert forall i :: 0 <= i < |DEFAULT_SEARCH_TERM| ==> DEFAULT_SEARCH_TERM[i] as int < 0x1_0000;
  }

  lemma NinetyOneRendered()
    ensures DecimalString(91) == "91"
  {
    assert DecimalString(91) == DecimalString(9) + [DigitChar(1)];
  }

  /** `!location || !location.trim()`, stated without `trim`. */
  predicate LocationMissing(location: Maybe<string>) {
    location.IsNullish() || AllWhiteSpace(location.value)
  }

  /** `checkParams(location)`. The emptiness check comes first; the length
      is the JavaScript `length`, counted in UTF-16 code units. */
  function CheckParams(location: Maybe<string>): (r: Check)
    ensures r.Thrown? ==> r.error.origin == SharedClass && r.error.statusCode == 400
    ensures r == Thrown(NewValidationError(SharedClass, 400, LOCATION_EMPTY)) <==> LocationMissing(location)
    ensures r == Thrown(NewValidationError(SharedClass, 400, LOCATION_TOO_LONG_91))
            <==> !LocationMissing(location) && Utf16Length(location.value) > 91
    ensures r.Passed? <==> !LocationMissing(location) && Utf16Length(location.value) <= 91
  {
    LocationTooLongNames91();
    TrimEmptyIffAllWhiteSpaceWhenDefined(location);
    if !location.Defined? || location.value == "" || Trim(location.value) == "" then
      Thrown(NewValidationError(SharedClass, 400, LOCATION_EMPTY))
    else if Utf16Length(location.value) + Utf16Length(DEFAULT_SEARCH_TERM) > QUERY_MAX_CHAR then
      Thrown(NewValidationError(SharedClass, 400, LocationTooLong()))
    else
      Passed
  }

  /** Where the limit falls: for a location without code points above
      U+FFFF, 91 code points pass and 92 do not. */
  lemma LengthLimitInCodePoints(s: string)
    requires !AllWhiteSpace(s)
    requires forall i :: 0 <= i < |s| ==> s[i] as int < 0x1_0000
    ensures CheckParams(Defined(s)).Passed? <==> |s| <= 91
  {
    assert Utf16Length(s) == |s|;
  }

  /** A code point above U+FFFF counts twice: 46 of them are too many. */
  lemma AstralCodePointsCountTwice(s: string)
    requires |s| == 46 && forall i :: 0 <= i < |s| ==> s[i] == '\U{1F3F0}'
    ensures CheckParams(Defined(s)).Thrown?
  {
    assert Utf16Length(s) == 92;
    assert !IsWhiteSpace(s[0]);
  }

  /** The six parameters the image service receives, in order. */
  function ImageParameters(location: Maybe<string>, env: ImageEnv): seq<Pair> {
    [ Pair("key", Show(env.apiKey)),
      Pair("q", Show(WithDefault(location, "")) + DEFAULT_SEARCH_TERM),
      Pair("image_type", "photo"),
      Pair("lang", "EN"),
      Pair("page", "1"),
      Pair("per_page", "3") ]
  }

  /** `getImageServiceUrl(location)`: the service reads back exactly the six
      parameters; `q` is the location followed by `+landmark`, the `+` kept
      as a plus sign rather than read as a space. */
  function ImageServiceUrl(location: Maybe<string>, env: ImageEnv): (req: Request)
    ensures req.Query? && req.base == env.baseUrl
    ensures Parse(QueryString(req)) == ImageParameters(location, env)
  {
    var pairs := ImageParameters(location, env);
    ParseSerialize(pairs);
    Query(env.baseUrl, pairs)
  }

  /** `extractErrorMessage(response)`: the body text, or a fixed phrase when
      reading it fails. */
  function ExtractErrorMessage(text: TextBody): (m: string)
    ensures text.Text? ==> m == text.text
    ensures text.Unreadable? ==> m == NO_MESSAGE
  {
    match text
    case Text(t) => t
    case Unreadable(_) => NO_MESSAGE
  }

  /** The part of `fetchImageData` after the request. */
  function HandleImageReply(reply: Reply): (h: Handling)
    ensures reply.NetworkFailure? ==> h == Handling([], Rejected(Propagated(reply.cause)))
    // A non-ok reply is read as text only, and its text is the message.
    ensures reply.Response? && !reply.Ok() ==> h.bodyReads == [ReadText]
    ensures reply.Response? && !reply.Ok() && reply.text.Text? ==>
              h.outcome == Rejected(PlainError(ERROR_PREFIX + reply.text.text))
    ensures reply.Response? && !reply.Ok() && reply.text.Unreadable? ==>
              h.outcome == Rejected(PlainError(ERROR_PREFIX + NO_MESSAGE))
    // An ok reply is read as JSON only, and the body is the result.
    ensures reply.Ok() ==> h.bodyReads == [ReadJson]
    ensures reply.Ok() && reply.json.Parsed? ==> h.outcome == Fulfilled(reply.json.json)
    ensures reply.Ok() && reply.json.NotJson? ==> h.outcome == Rejected(Propagated(reply.json.cause))
  {
    match reply
    case NetworkFailure(cause) => Handling([], Rejected(Propagated(cause)))
    case Response(_, json, text) =>
      if !reply.Ok() then
        Handling([ReadText], Rejected(PlainError(ERROR_PREFIX + ExtractErrorMessage(text))))
      else
        match json
        case Parsed(body) => Handling([ReadJson], Fulfilled(body))
        case NotJson(cause) => Handling([ReadJson], Rejected(Propagated(cause)))
  }

  /** `fetchImageData(location)` with `IMAGE_URL`/`IMAGE_API_KEY` from `env`
      and `reply` as the outcome of its one `fetch`. */
  function FetchImageData(location: Maybe<string>, env: ImageEnv, reply: Reply): (run: Run)
    ensures LocationMissing(location) ==>
              run == Run([], [], Rejected(Validation(NewValidationError(SharedClass, 400, LOCATION_EMPTY))))
    ensures !LocationMissing(location) && Utf16Length(location.value) > 91 ==>
              run == Run([], [], Rejected(Validation(
                NewValidationError(SharedClass, 400, LOCATION_TOO_LONG_91))))
    ensures !LocationMissing(location) && Utf16Length(location.value) <= 91 ==>
              && run.requests == [ImageServiceUrl(location, env)]
              && Handling(run.bodyReads, run.outcome) == HandleImageReply(reply)
  {
    var l := WithDefault(location, "");
    match CheckParams(l)
    case Thrown(e) => Run([], [], Rejected(Validation(e)))
    case Passed =>
      var h := HandleImageReply(reply);
      Run([ImageServiceUrl(l, env)], h.bodyReads, h.outcome)
  }

  /** The body readers are mutually exclusive: an ok reply's text and a
      failed reply's JSON never influence the result. */
  lemma UnreadBodyIrrelevant(status: nat, j1: JsonBody, j2: JsonBody, t1: TextBody, t2: TextBody)
    ensures 200 <= status < 300 ==>
              HandleImageReply(Response(status, j1, t1)) == HandleImageReply(Response(status, j1, t2))
    ensures !(200 <= status < 300) ==>
              HandleImageReply(Response(status, j1, t1)) == HandleImageReply(Response(status, j2, t1))
  {
  }

  /** Only a valid location, an ok reply and a JSON body give a result, and
      the result is that body. */
  lemma SuccessMeansOkJson(location: Maybe<string>, env: ImageEnv, reply: Reply)
    ensures var run := FetchImageData(location, env, reply);
            run.outcome.Fulfilled? <==>
              && !LocationMissing(location) && Utf16Length(location.value) <= 91
              && reply.Ok() && reply.json.Parsed?
    ensures var run := FetchImageData(location, env, reply);
            run.outcome.Fulfilled? ==> run.outcome.value == reply.json.json
  {
  }
}

=== FILE: fetch_weather_data.dfy ===
/**
 * The server's weather adapter: it assembles the current-weather URL by
 * hand from a zip code, a unit system and an API key, issues one GET, and
 * returns whatever JSON the service answers with, error statuses included.
 */
module WeatherService {
  import opened JsCore
  import opened JsErrors
  import opened Exchange
  import opened FormUrlencoded

  /** The unit system every request asks for. */
  const UNITS := "metric"
  const WEATHER_SERVICE_BASE := "http://api.openweathermap.org/data/2.5/weather"

  /** The configured key (`WEATHER_API_KEY`), possibly unset. */
  datatype WeatherEnv = WeatherEnv(apiKey: Maybe<string>)

  /** `units=UNITS`: only a left-out argument takes the default. */
  function UnitsValue(units: Maybe<string>): string {
    Show(WithDefault(units, UNITS))
  }

  /** `appid=process.env.WEATHER_API_KEY`: a left-out argument takes the
      configured key, which itself may be unset. */
  function AppidValue(appid: Maybe<string>, env: WeatherEnv): string {
    Show(if appid.Undefined? then env.apiKey else appid)
  }

  /** The three fields the URL means to carry, in order. */
  function WeatherParameters(zip: Maybe<string>, units: Maybe<string>, appid: Maybe<string>,
                             env: WeatherEnv): seq<Pair> {
    [ Pair("zip", Show(zip)),
      Pair("units", UnitsValue(units)),
      Pair("appid", AppidValue(appid, env)) ]
  }

  predicate AllUnreserved(s: string) {
    forall i :: 0 <= i < |s| ==> Unreserved(s[i])
  }

  /** One `name=value` field of the template, pasted as it is. */
  function Field(name: string, value: string): string {
    name + "=" + value
  }

  /** `getWeatherServiceUrl(zip, units, appid)`: the values are pasted into
      a template without any escaping, so each one sits verbatim at a fixed
      offset behind its field name. When none of them holds a code point
      that form encoding would escape, the query is exactly what the
      standard serializer writes. */
  function WeatherServiceUrl(zip: Maybe<string>, units: Maybe<string>, appid: Maybe<string>,
                             env: WeatherEnv): (url: string)
    ensures WEATHER_SERVICE_BASE + "?zip=" <= url
    ensures var z, u, a := Show(zip), UnitsValue(units), AppidValue(appid, env);
            var p := |WEATHER_SERVICE_BASE| + 5;
            && |url| == p + |z| + 7 + |u| + 7 + |a|
            && url[p..][..|z|] == z
            && url[p + |z|..][..7] == "&units="
            && url[p + |z| + 7..][..|u|] == u
            && url[p + |z| + 7 + |u|..] == "&appid=" + a
    ensures var ps := WeatherParameters(zip, units, appid, env);
            AllUnreserved(ps[0].value) && AllUnreserved(ps[1].value) && AllUnreserved(ps[2].value) ==>
              url == WEATHER_SERVICE_BASE + "?" + Serialize(ps)
  {
    var z, u, a := Show(zip), UnitsValue(units), AppidValue(appid, env);
    var ps := [Pair("zip", z), Pair("units", u), Pair("appid", a)];
    TemplateLayout(z, u, a);
    TemplateOffsets(WEATHER_SERVICE_BASE + "?zip=", z, u, a);
    UnreservedQueryIsSerialized(ps);
    WEATHER_SERVICE_BASE + "?" + Query(ps)
  }

  lemma UnreservedQueryIsSerialized(ps: seq<Pair>)
    requires |ps| == 3 && ps[0].name == "zip" && ps[1].name == "units" && ps[2].name == "appid"
    ensures AllUnreserved(ps[0].value) && AllUnreserved(ps[1].value) && AllUnreserved(ps[2].value) ==>
              Serialize(ps) == Query(ps)
  {
    if AllUnreserved(ps[0].value) && AllUnreserved(ps[1].value) && AllUnreserved(ps[2].value) {
      PlainQueryIsSerialized(ps);
    }
  }

  /** The template, read as one run of text: fixed pieces between the values. */
  lemma TemplateLayout(z: string, u: string, a: string)
    ensures WEATHER_SERVICE_BASE + "?" + Query([Pair("zip", z), Pair("units", u), Pair("appid", a)])
         == WEATHER_SERVICE_BASE + "?zip=" + z + "&units=" + u + "&appid=" + a
  {
    assert Field("zip", z) == "zip=" + z;
    assert Field("units", u) == "units=" + u;
    assert Field("appid", a) == "appid=" + a;
  }

  /** Where each value of a laid-out template starts and ends. */
  lemma TemplateOffsets(h: string, z: string, u: string, a: string)
    ensures var url := h + z + "&units=" + u + "&appid=" + a;
            var p := |h|;
            && |url| == p + |z| + 7 + |u| + 7 + |a|
            && url[..p] == h
            && url[p..][..|z|] == z
            && url[p + |z|..][..7] == "&units="
            && url[p + |z| + 7..][..|u|] == u
            && url[p + |z| + 7 + |u|..] == "&appid=" + a
  {
    var url := h + z + "&units=" + u + "&appid=" + a;
    var p := |h|;
    assert url[p..] == z + "&units=" + u + "&appid=" + a;
    assert url[p + |z|..] == "&units=" + u + "&appid=" + a;
    assert url[p + |z| + 7..] == u + "&appid=" + a;
  }

  /** The query of the template for three fields. */
  function Query(ps: seq<Pair>): string
    requires |ps| == 3
  {
    Field(ps[0].name, ps[0].value) + "&" + (Field(ps[1].name, ps[1].value) + "&" + Field(ps[2].name, ps[2].value))
  }

  lemma SerializePairPlain(p: Pair)
    requires AllUnreserved(p.name) && AllUnreserved(p.value)
    ensures SerializePair(p) == Field(p.name, p.value)
  {
    EncodeUnreserved(p.name);
    EncodeUnreserved(p.value);
  }

  /** With unreserved names and values, the hand-made query and the
      serializer agree. */
  lemma PlainQueryIsSerialized(ps: seq<Pair>)
    requires |ps| == 3
    requires forall i :: 0 <= i < 3 ==> AllUnreserved(ps[i].name) && AllUnreserved(ps[i].value)
    ensures Serialize(ps) == Query(ps)
  {
    SerializePairPlain(ps[0]);
    SerializePairPlain(ps[1]);
    SerializePairPlain(ps[2]);
    var tail := ps[1..];
    assert tail[0] == ps[1] && tail[1..] == [ps[2]];
    assert Serialize(tail[1..]) == SerializePair(ps[2]);
    assert Serialize(tail) == SerializePair(ps[1]) + "&" + SerializePair(ps[2]);
    assert Serialize(ps) == SerializePair(ps[0]) + "&" + Serialize(tail);
  }

  /** A value that the unescaped template carries intact: no `&` to end
      its field, no `+` or `%` for the form decoder to rewrite, and no `#`
      to start a fragment. Commas, spaces and non-ASCII text are all fine. */
  predicate Verbatim(v: string) {
    Avoids(v, '&') && Avoids(v, '+') && Avoids(v, '%') && Avoids(v, '#')
  }

  /** A field whose name and value need no escaping is one `&`-free piece
      that parses back into the same pair. */
  lemma ParseField(name: string, value: string)
    requires Verbatim(name) && Avoids(name, '=') && Verbatim(value)
    ensures Avoids(Field(name, value), '&')
    ensures ParseSequences([Field(name, value)]) == [Pair(name, value)]
  {
    var f := Field(name, value);
    assert Avoids("=", '&');
    AvoidsConcat(name, "=", '&');
    AvoidsConcat(name + "=", value, '&');
    BreakAtFirstAt(name, '=', value);
    DecodeComponentPlain(name);
    DecodeComponentPlain(value);
    assert f == name + ['='] + value;
    assert ParseSequences([f]) == [Pair(name, value)] + ParseSequences([f][1..]);
  }

  /** The service reads back the three intended fields whenever their
      values are carried verbatim, such as the usual `94040,us`. */
  lemma {:induction false} PlainValuesReachService(zip: Maybe<string>, units: Maybe<string>,
                                                   appid: Maybe<string>, env: WeatherEnv)
    requires Verbatim(Show(zip)) && Verbatim(UnitsValue(units)) && Verbatim(AppidValue(appid, env))
    ensures var url := WeatherServiceUrl(zip, units, appid, env);
            var n := |WEATHER_SERVICE_BASE| + 1;
            n <= |url| && Parse(url[n..]) == WeatherParameters(zip, units, appid, env)
  {
    UrlCarriesQuery(zip, units, appid, env);
    NamesVerbatim();
    ParseQuery(WeatherParameters(zip, units, appid, env));
  }

  lemma UrlCarriesQuery(zip: Maybe<string>, units: Maybe<string>, appid: Maybe<string>, env: WeatherEnv)
    ensures var url := WeatherServiceUrl(zip, units, appid, env);
            var n := |WEATHER_SERVICE_BASE| + 1;
            n <= |url| && url[n..] == Query(WeatherParameters(zip, units, appid, env))
  {
  }

  lemma NamesVerbatim()
    ensures Verbatim("zip") && Avoids("zip", '=')
    ensures Verbatim("units") && Avoids("units", '=')
    ensures Verbatim("appid") && Avoids("appid", '=')
  {
  }

  /** Three `&`-free pieces joined by `&` split back into those pieces. */
  lemma SplitThree(f0: string, f1: string, f2: string)
    requires Avoids(f0, '&') && Avoids(f1, '&') && Avoids(f2, '&')
    ensures SplitOn(f0 + "&" + (f1 + "&" + f2), '&') == [f0, f1, f2]
  {
    SplitOnWithout(f2, '&');
    SplitOnAt(f1, '&', f2);
    SplitOnAt(f0, '&', f1 + "&" + f2);
  }

  lemma ParseThree(f0: string, f1: string, f2: string)
    requires f0 != [] && f1 != []
    ensures ParseSequences([f0, f1, f2]) == ParseSequences([f0]) + ParseSequences([f1]) + ParseSequences([f2])
  {
    ParseSequencesCons(f1, [f2]);
    ParseSequencesCons(f0, [f1, f2]);
    assert [f1] + [f2] == [f1, f2] && [f0] + [f1, f2] == [f0, f1, f2];
  }

  /** A three-field query of verbatim names and values parses back into
      its fields. */
  lemma ParseQuery(ps: seq<Pair>)
    requires |ps| == 3
    requires forall i :: 0 <= i < 3 ==> Verbatim(ps[i].name) && Avoids(ps[i].name, '=') && Verbatim(ps[i].value)
    ensures Parse(Query(ps)) == ps
  {
    var f0 := Field(ps[0].name, ps[0].value);
    var f1 := Field(ps[1].name, ps[1].value);
    var f2 := Field(ps[2].name, ps[2].value);
    ParseField(ps[0].name, ps[0].value);
    ParseField(ps[1].name, ps[1].value);
    ParseField(ps[2].name, ps[2].value);
    SplitThree(f0, f1, f2);
    assert f0 == ps[0].name + "=" + ps[0].value && f1 == ps[1].name + "=" + ps[1].value;
    ParseThree(f0, f1, f2);
    assert ps == [ps[0]] + [ps[1]] + [ps[2]];
  }

  lemma AvoidsConcat(a: string, b: string, c: char)
    requires Avoids(a, c) && Avoids(b, c)
    ensures Avoids(a + b, c)
  {
    assert forall i :: 0 <= i < |a + b| ==> (a + b)[i] == if i < |a| then a[i] else b[i - |a|];
  }

  /** The first field of a query is read from the text before its first `&`. */
  lemma ParseFirstField(name: string, value: string, rest: string)
    requires Avoids(name, '&') && Avoids(name, '=') && Avoids(value, '&')
    ensures var fields := Parse(name + "=" + value + "&" + rest);
            |fields| >= 1 && fields[0] == Pair(DecodeComponent(name), DecodeComponent(value))
  {
    var first := name + "=" + value;
    assert Avoids("=", '&');
    AvoidsConcat(name, "=", '&');
    AvoidsConcat(name + "=", value, '&');
    SplitOnAt(first, '&', rest);
    BreakAtFirstAt(name, '=', value);
    ParseSequencesCons(first, SplitOn(rest, '&'));
  }

  lemma Regroup(f: string, pre: string, post: string, tail: string)
    ensures Field(f, pre + "&" + post) + "&" + tail == f + "=" + pre + "&" + (post + "&" + tail)
  {
  }

  /** Without escaping, an `&` in the zip ends the zip field early: the
      service reads as the zip only the part before the first `&`. */
  lemma AmpersandInZipTruncates(pre: string, post: string, units: Maybe<string>,
                                appid: Maybe<string>, env: WeatherEnv)
    requires Avoids(pre, '&') && Avoids(pre, '#')
    ensures var url := WeatherServiceUrl(Defined(pre + "&" + post), units, appid, env);
            var n := |WEATHER_SERVICE_BASE| + 1;
            var fields := Parse(url[n..]);
            n <= |url| && |fields| >= 1 && fields[0] == Pair("zip", DecodeComponent(pre))
  {
    var ps := WeatherParameters(Defined(pre + "&" + post), units, appid, env);
    var url := WeatherServiceUrl(Defined(pre + "&" + post), units, appid, env);
    var n := |WEATHER_SERVICE_BASE| + 1;
    var tail := Field(ps[1].name, ps[1].value) + "&" + Field(ps[2].name, ps[2].value);
    assert url[n..] == Query(ps);
    assert Query(ps) == Field("zip", pre + "&" + post) + "&" + tail;
    Regroup("zip", pre, post, tail);
    assert Avoids("zip", '&') && Avoids("zip", '=');
    ParseFirstField("zip", pre, post + "&" + tail);
    EncodeUnreserved("zip");
    DecodeComponentEncode("zip");
  }

  /** The settling of the one `fetch` and of `response.json()`, given the
      URL. The status is never looked at. */
  function HandleWeatherReply(reply: Reply): (h: Handling)
    ensures reply.NetworkFailure? ==> h == Handling([], Rejected(Propagated(reply.cause)))
    ensures reply.Response? ==> h.bodyReads == [ReadJson]
    ensures reply.Response? && reply.json.Parsed? ==> h.outcome == Fulfilled(reply.json.json)
    ensures reply.Response? && reply.json.NotJson? ==> h.outcome == Rejected(Propagated(reply.json.cause))
  {
    match reply
    case NetworkFailure(cause) => Handling([], Rejected(Propagated(cause)))
    case Response(_, json, _) =>
      match json
      case Parsed(body) => Handling([ReadJson], Fulfilled(body))
      case NotJson(cause) => Handling([ReadJson], Rejected(Propagated(cause)))
  }

  /** `fetchWeatherData(zip)` with the default URL builder, the configured
      key in `env` and `reply` as the outcome of its one `fetch`. */
  function FetchWeatherData(zip: Maybe<string>, env: WeatherEnv, reply: Reply): (run: Run)
    ensures run.requests == [Literal(WeatherServiceUrl(zip, Undefined, Undefined, env))]
    ensures Handling(run.bodyReads, run.outcome) == HandleWeatherReply(reply)
  {
    var h := HandleWeatherReply(reply);
    Run([Literal(WeatherServiceUrl(zip, Undefined, Undefined, env))], h.bodyReads, h.outcome)
  }

  /** Neither the status nor the text body changes the result: an error
      reply's JSON is returned as if it were weather data. */
  lemma StatusIgnored(zip: Maybe<string>, env: WeatherEnv, s1: nat, s2: nat,
                      json: JsonBody, t1: TextBody, t2: TextBody)
    ensures FetchWeatherData(zip, env, Response(s1, json, t1))
         == FetchWeatherData(zip, env, Response(s2, json, t2))
  {
  }

  /** A zip carried verbatim reaches the service as the zip field, next
      to the metric unit system and the configured key. */
  lemma DefaultRequestFields(zip: string, key: string, reply: Reply)
    requires Verbatim(zip) && Verbatim(key)
    ensures var r := FetchWeatherData(Defined(zip), WeatherEnv(Defined(key)), reply).requests[0];
            var n := |WEATHER_SERVICE_BASE| + 1;
            n <= |Href(r)|
            && Parse(Href(r)[n..]) == [Pair("zip", zip), Pair("units", "metric"), Pair("appid", key)]
  {
    assert Verbatim(UNITS);
    PlainValuesReachService(Defined(zip), Undefined, Undefined, WeatherEnv(Defined(key)));
  }
}

=== FILE: form_urlencoded.dfy ===
/**
 * The application/x-www-form-urlencoded format of section 5 of the WHATWG
 * URL Standard: the serializer (5.2) that `URLSearchParams` uses to write a
 * URL's query, and the parser (5.1) a service uses to read it back.
 * The adapters only serialize; the parser is here as the serializer's
 * inverse, so that the query each adapter sends is proved to deliver
 * exactly the name/value pairs it appended.
 */
module FormUrlencoded {
  import Utf8

  /** One `append(name, value)` entry of a `URLSearchParams` list. */
  datatype Pair = Pair(name: string, value: string)

  /** The code points the serializer leaves as they are: ASCII alphanumerics
      and `*`, `-`, `.`, `_`. Everything else but the space is percent-encoded. */
  predicate Unreserved(c: char) {
    || ('a' <= c <= 'z') || ('A' <= c <= 'Z') || ('0' <= c <= '9')
    || c == '*' || c == '-' || c == '.' || c == '_'
  }

  /** The code points that can appear in a serialized name or value. */
  predicate IsEncodedChar(c: char) {
    Unreserved(c) || c == '%' || c == '+'
  }

  predicate AllEncodedChars(s: string) {
    forall i :: 0 <= i < |s| ==> IsEncodedChar(s[i])
  }

  /** An upper-case hexadecimal digit, as percent-encoding writes it. */
  function HexDigit(d: nat): (c: char)
    requires d < 16
    ensures Unreserved(c)
  {
    if d < 10 then ('0' as int + d) as char else ('A' as int + d - 10) as char
  }

  predicate IsHexDigit(c: char) {
    ('0' <= c <= '9') || ('A' <= c <= 'F') || ('a' <= c <= 'f')
  }

  function HexValue(c: char): (d: nat)
    requires IsHexDigit(c)
    ensures d < 16
  {
    if '0' <= c <= '9' then c as int - '0' as int
    else if 'A' <= c <= 'F' then c as int - 'A' as int + 10
    else c as int - 'a' as int + 10
  }

  function PercentEncodeByte(b: Utf8.byte): string {
    ['%', HexDigit(b / 16), HexDigit(b % 16)]
  }

  function PercentEncodeBytes(bs: seq<Utf8.byte>): (s: string)
    ensures |s| == 3 * |bs|
    ensures AllEncodedChars(s)
  {
    if bs == [] then [] else PercentEncodeByte(bs[0]) + PercentEncodeBytes(bs[1..])
  }

  /** One code point of a name or value, serialized. */
  function EncodeChar(c: char): (s: string)
    ensures 1 <= |s| && AllEncodedChars(s)
  {
    if Unreserved(c) then [c]
    else if c == ' ' then "+"
    else PercentEncodeBytes(Utf8.EncodeChar(c))
  }

  /** A name or value, serialized: its UTF-8 bytes, percent-encoded, with
      the space written as `+`. */
  function Encode(s: string): (r: string)
    ensures AllEncodedChars(r)
    ensures |s| <= |r|
  {
    if s == [] then [] else EncodeChar(s[0]) + Encode(s[1..])
  }

  function SerializePair(p: Pair): string {
    Encode(p.name) + "=" + Encode(p.value)
  }

  /** The whole list, `name=value` entries joined by `&`. */
  function Serialize(pairs: seq<Pair>): string {
    if pairs == [] then ""
    else if |pairs| == 1 then SerializePair(pairs[0])
    else SerializePair(pairs[0]) + "&" + Serialize(pairs[1..])
  }

  /* ---------------------------------------------------------------- */
  /* The parser of section 5.1.                                        */

  /** `s` cut at every `sep`; at least one (possibly empty) piece. */
  function SplitOn(s: string, sep: char): (r: seq<string>)
    ensures |r| >= 1
    decreases |s|
  {
    if s == [] then [[]]
    else
      var rest := SplitOn(s[1..], sep);
      if s[0] == sep then [[]] + rest else [[s[0]] + rest[0]] + rest[1..]
  }

  /** The part before the first `sep` and the part after it (empty when
      there is no `sep`). */
  function BreakAtFirst(s: string, sep: char): (string, string)
    decreases |s|
  {
    if s == [] then ([], [])
    else if s[0] == sep then ([], s[1..])
    else
      var (before, after) := BreakAtFirst(s[1..], sep);
      ([s[0]] + before, after)
  }

  /** `+` read as a space and `%XY` as the byte XY; every other code point
      stands for its own UTF-8 bytes. */
  function PercentDecode(t: string): seq<Utf8.byte>
    decreases |t|
  {
    if t == [] then []
    else if t[0] == '+' then [0x20] + PercentDecode(t[1..])
    else if t[0] == '%' && |t| >= 3 && IsHexDigit(t[1]) && IsHexDigit(t[2]) then
      [HexValue(t[1]) * 16 + HexValue(t[2])] + PercentDecode(t[3..])
    else Utf8.EncodeChar(t[0]) + PercentDecode(t[1..])
  }

  function DecodeComponent(t: string): string {
    Utf8.Decode(PercentDecode(t))
  }

  function ParseSequences(pieces: seq<string>): seq<Pair> {
    if pieces == [] then []
    else if pieces[0] == [] then ParseSequences(pieces[1..])
    else
      var (name, value) := BreakAtFirst(pieces[0], '=');
      [Pair(DecodeComponent(name), DecodeComponent(value))] + ParseSequences(pieces[1..])
  }

  function Parse(input: string): seq<Pair> {
    ParseSequences(SplitOn(input, '&'))
  }

  /* ---------------------------------------------------------------- */
  /* Round trip.                                                       */

  lemma HexRoundTrip(b: Utf8.byte)
    ensures IsHexDigit(HexDigit(b / 16)) && IsHexDigit(HexDigit(b % 16))
    ensures HexValue(HexDigit(b / 16)) * 16 + HexValue(HexDigit(b % 16)) == b
  {
  }

  lemma {:induction false} PercentDecodeBytes(bs: seq<Utf8.byte>, rest: string)
    ensures PercentDecode(PercentEncodeBytes(bs) + rest) == bs + PercentDecode(rest)
    decreases |bs|
  {
    if bs != [] {
      var tail := PercentEncodeBytes(bs[1..]) + rest;
      var t := PercentEncodeByte(bs[0]) + tail;
      assert PercentEncodeBytes(bs) + rest == t;
      HexRoundTrip(bs[0]);
      assert t[0] == '%' && t[1] == HexDigit(bs[0] / 16) && t[2] == HexDigit(bs[0] % 16);
      assert t[3..] == tail;
      assert PercentDecode(t) == [bs[0]] + PercentDecode(tail);
      PercentDecodeBytes(bs[1..], rest);
      assert [bs[0]] + bs[1..] == bs;
    } else {
      assert PercentEncodeBytes(bs) + rest == rest;
    }
  }

  lemma PercentDecodeChar(c: char, rest: string)
    ensures PercentDecode(EncodeChar(c) + rest) == Utf8.EncodeChar(c) + PercentDecode(rest)
  {
    if Unreserved(c) {
      assert ([c] + rest)[1..] == rest;
    } else if c == ' ' {
      assert ("+" + rest)[1..] == rest;
    } else {
      PercentDecodeBytes(Utf8.EncodeChar(c), rest);
    }
  }

  lemma {:induction false} PercentDecodeEncode(s: string)
    ensures PercentDecode(Encode(s)) == Utf8.Encode(s)
    decreases |s|
  {
    if s != [] {
      PercentDecodeChar(s[0], Encode(s[1..]));
      PercentDecodeEncode(s[1..]);
    }
  }

  /** Every name and value is read back exactly as it was appended. */
  lemma DecodeComponentEncode(s: string)
    ensures DecodeComponent(Encode(s)) == s
  {
    PercentDecodeEncode(s);
    Utf8.DecodeEncode(s);
  }

  predicate Avoids(s: string, c: char) {
    forall i :: 0 <= i < |s| ==> s[i] != c
  }

  lemma AvoidsTail(s: string, c: char)
    requires s != [] && Avoids(s, c)
    ensures s[0] != c && Avoids(s[1..], c)
  {
    assert forall i :: 0 <= i < |s| - 1 ==> s[1..][i] == s[i + 1];
  }

  lemma {:induction false} SplitOnWithout(a: string, sep: char)
    requires Avoids(a, sep)
    ensures SplitOn(a, sep) == [a]
    decreases |a|
  {
    if a != [] {
      AvoidsTail(a, sep);
      SplitOnWithout(a[1..], sep);
      assert [a[0]] + a[1..] == a;
    }
  }

  lemma {:induction false} SplitOnAt(a: string, sep: char, b: string)
    requires Avoids(a, sep)
    ensures SplitOn(a + [sep] + b, sep) == [a] + SplitOn(b, sep)
    decreases |a|
  {
    var s := a + [sep] + b;
    if a == [] {
      assert s[0] == sep && s[1..] == b;
    } else {
      AvoidsTail(a, sep);
      assert s[0] == a[0] && s[1..] == a[1..] + [sep] + b;
      SplitOnAt(a[1..], sep, b);
      assert [a[0]] + a[1..] == a;
    }
  }

  lemma {:induction false} BreakAtFirstAt(a: string, sep: char, b: string)
    requires Avoids(a, sep)
    ensures BreakAtFirst(a + [sep] + b, sep) == (a, b)
    decreases |a|
  {
    var s := a + [sep] + b;
    if a == [] {
      assert s[0] == sep && s[1..] == b;
    } else {
      AvoidsTail(a, sep);
      assert s[0] == a[0] && s[1..] == a[1..] + [sep] + b;
      BreakAtFirstAt(a[1..], sep, b);
      assert [a[0]] + a[1..] == a;
    }
  }

  /** A serialized name or value holds neither separator. */
  lemma EncodedAvoidsSeparators(s: string)
    ensures Avoids(Encode(s), '&') && Avoids(Encode(s), '=')
  {
    var r := Encode(s);
    assert forall i :: 0 <= i < |r| ==> IsEncodedChar(r[i]);
  }

  lemma SerializedPairAvoidsAmpersand(p: Pair)
    ensures SerializePair(p) != [] && Avoids(SerializePair(p), '&')
  {
    var n := Encode(p.name);
    var v := Encode(p.value);
    EncodedAvoidsSeparators(p.name);
    EncodedAvoidsSeparators(p.value);
    var sp := SerializePair(p);
    assert sp == n + "=" + v;
    forall i | 0 <= i < |sp|
      ensures sp[i] != '&'
    {
      if i < |n| {
        assert sp[i] == n[i];
      } else if i > |n| {
        assert sp[i] == v[i - |n| - 1];
      }
    }
  }

  lemma ParseSerializedPair(p: Pair)
    ensures ParseSequences([SerializePair(p)]) == [p]
  {
    var n := Encode(p.name);
    var v := Encode(p.value);
    EncodedAvoidsSeparators(p.name);
    assert SerializePair(p) == n + ['='] + v;
    BreakAtFirstAt(n, '=', v);
    DecodeComponentEncode(p.name);
    DecodeComponentEncode(p.value);
    SerializedPairAvoidsAmpersand(p);
  }

  lemma ParseSequencesCons(piece: string, rest: seq<string>)
    requires piece != []
    ensures ParseSequences([piece] + rest) == ParseSequences([piece]) + ParseSequences(rest)
  {
    assert ([piece] + rest)[0] == piece && ([piece] + rest)[1..] == rest;
    assert [piece][1..] == [];
  }

  /** Parsing a serialized list gives back the list: every pair, in order,
      with its name and value unchanged, whatever code points they hold. */
  lemma {:induction false} ParseSerialize(pairs: seq<Pair>)
    ensures Parse(Serialize(pairs)) == pairs
    decreases |pairs|
  {
    if pairs == [] {
      assert SplitOn("", '&') == [[]];
    } else if |pairs| == 1 {
      ParseSerializedPair(pairs[0]);
      SerializedPairAvoidsAmpersand(pairs[0]);
      SplitOnWithout(SerializePair(pairs[0]), '&');
    } else {
      var head := SerializePair(pairs[0]);
      var tail := Serialize(pairs[1..]);
      assert Serialize(pairs) == head + ['&'] + tail;
      ParseSerializedPair(pairs[0]);
      SerializedPairAvoidsAmpersand(pairs[0]);
      SplitOnAt(head, '&', tail);
      ParseSequencesCons(head, SplitOn(tail, '&'));
      ParseSerialize(pairs[1..]);
      assert [pairs[0]] + pairs[1..] == pairs;
    }
  }

  /** A string of unreserved code points is serialized as it is. */
  lemma {:induction false} EncodeUnreserved(s: string)
    requires forall i :: 0 <= i < |s| ==> Unreserved(s[i])
    ensures Encode(s) == s
    decreases |s|
  {
    if s != [] {
      EncodeUnreserved(s[1..]);
    }
  }

  /** Text without `+` or `%` stands for its own UTF-8 bytes. */
  lemma {:induction false} PercentDecodePlain(t: string)
    requires Avoids(t, '+') && Avoids(t, '%')
    ensures PercentDecode(t) == Utf8.Encode(t)
    decreases |t|
  {
    if t != [] {
      AvoidsTail(t, '+');
      AvoidsTail(t, '%');
      PercentDecodePlain(t[1..]);
    }
  }

  /** Text without `+` or `%` is read back as it is, whatever other code
      points it holds. */
  lemma DecodeComponentPlain(t: string)
    requires Avoids(t, '+') && Avoids(t, '%')
    ensures DecodeComponent(t) == t
  {
    PercentDecodePlain(t);
    Utf8.DecodeEncode(t);
  }
}

=== FILE: js_core.dfy ===
/**
 * JavaScript value conventions shared by the client and server modules:
 * missing arguments, default parameters and `??`, `String.prototype.trim`,
 * the UTF-16 `length` of a string, and the decimal rendering of a
 * non-negative integer.
 */
module JsCore {

  /** An argument as a JavaScript caller passes it: left out, `null`, or a value. */
  datatype Maybe<T> = Undefined | Null | Defined(value: T) {

    /** True for the two values `??` replaces. */
    predicate IsNullish() {
      Undefined? || Null?
    }
  }

  /** A default parameter `p = d`: only `undefined` is replaced, `null` is kept. */
  function WithDefault<T>(x: Maybe<T>, d: T): Maybe<T> {
    if x.Undefined? then Defined(d) else x
  }

  /** The nullish-coalescing operator `x ?? d`. */
  function Coalesce<T>(x: Maybe<T>, d: T): T {
    if x.Defined? then x.value else d
  }

  /** String conversion of a possibly missing string, as a template literal
      or `URLSearchParams.append` performs it. */
  function Show(x: Maybe<string>): string {
    match x
    case Undefined => "undefined"
    case Null => "null"
    case Defined(s) => s
  }

  /** The code points ECMAScript's `trim` removes: WhiteSpace and LineTerminator. */
  predicate IsWhiteSpace(c: char) {
    || c == '\t' || c == '\n' || c == '\U{000B}' || c == '\U{000C}' || c == '\r'
    || c == ' ' || c == '\U{00A0}' || c == '\U{1680}'
    || ('\U{2000}' <= c <= '\U{200A}')
    || c == '\U{2028}' || c == '\U{2029}' || c == '\U{202F}' || c == '\U{205F}'
    || c == '\U{3000}' || c == '\U{FEFF}'
  }

  predicate AllWhiteSpace(s: string) {
    forall i :: 0 <= i < |s| ==> IsWhiteSpace(s[i])
  }

  /** Leading white space removed. */
  function TrimStart(s: string): (r: string)
    ensures |r| <= |s| && r == s[|s| - |r|..]
    ensures AllWhiteSpace(s[..|s| - |r|])
    ensures r == [] || !IsWhiteSpace(r[0])
    decreases |s|
  {
    if |s| > 0 && IsWhiteSpace(s[0]) then TrimStart(s[1..]) else s
  }

  /** Trailing white space removed. */
  function TrimEnd(s: string): (r: string)
    ensures |r| <= |s| && r == s[..|r|]
    ensures AllWhiteSpace(s[|r|..])
    ensures r == [] || !IsWhiteSpace(r[|r| - 1])
    decreases |s|
  {
    if |s| > 0 && IsWhiteSpace(s[|s| - 1]) then TrimEnd(s[..|s| - 1]) else s
  }

  /** `String.prototype.trim`. */
  function Trim(s: string): string {
    TrimEnd(TrimStart(s))
  }

  /** `s.trim()` is the empty (falsy) string exactly when `s` is all white space. */
  lemma TrimEmptyIffAllWhiteSpace(s: string)
    ensures Trim(s) == [] <==> AllWhiteSpace(s)
  {
    var t := TrimStart(s);
    if Trim(s) == [] {
      assert AllWhiteSpace(t[0..]);
      assert s == s[..|s| - |t|] + t;
    }
    if AllWhiteSpace(s) {
      TrimStartOfWhiteSpace(s);
      assert Trim(s) == TrimEnd([]);
    }
  }

  /** `TrimEmptyIffAllWhiteSpace` for a possibly missing argument. */
  lemma TrimEmptyIffAllWhiteSpaceWhenDefined(x: Maybe<string>)
    ensures x.Defined? ==> (Trim(x.value) == [] <==> AllWhiteSpace(x.value))
  {
    if x.Defined? {
      TrimEmptyIffAllWhiteSpace(x.value);
    }
  }

  lemma {:induction false} TrimStartOfWhiteSpace(s: string)
    requires AllWhiteSpace(s)
    ensures TrimStart(s) == []
    decreases |s|
  {
    if s != [] {
      assert forall i :: 0 <= i < |s| - 1 ==> s[1..][i] == s[i + 1];
      TrimStartOfWhiteSpace(s[1..]);
    }
  }

  /** The number of UTF-16 code units of `s`, which is what JavaScript's
      `length` counts: a code point above U+FFFF takes two. */
  function Utf16Length(s: string): (n: nat)
    ensures |s| <= n <= 2 * |s|
    ensures n == |s| <==> forall i :: 0 <= i < |s| ==> s[i] as int < 0x1_0000
    ensures n == 2 * |s| <==> forall i :: 0 <= i < |s| ==> s[i] as int >= 0x1_0000
  {
    if s == [] then 0
    else (if s[0] as int < 0x1_0000 then 1 else 2) + Utf16Length(s[1..])
  }

  predicate IsDigit(c: char) {
    '0' <= c <= '9'
  }

  function DigitChar(d: nat): char
    requires d < 10
  {
    ('0' as int + d) as char
  }

  function DigitValue(c: char): nat
    requires IsDigit(c)
  {
    c as int - '0' as int
  }

  /** `String(n)` for a non-negative integer: its decimal digits, no leading zero. */
  function DecimalString(n: nat): (s: string)
    ensures 1 <= |s|
    ensures forall i :: 0 <= i < |s| ==> IsDigit(s[i])
    ensures s[0] == '0' ==> n == 0 && s == "0"
    decreases n
  {
    if n < 10 then [DigitChar(n)] else DecimalString(n / 10) + [DigitChar(n % 10)]
  }

  /** The value of a string of decimal digits, read left to right. */
  function DecimalValue(s: string): nat
    requires forall i :: 0 <= i < |s| ==> IsDigit(s[i])
  {
    if s == [] then 0
    else 10 * DecimalValue(s[..|s| - 1]) + DigitValue(s[|s| - 1])
  }

  /** Reading back the decimal rendering of `n` yields `n`. */
  lemma {:induction false} DecimalRoundTrip(n: nat)
    ensures DecimalValue(DecimalString(n)) == n
    decreases n
  {
    var s := DecimalString(n);
    if n >= 10 {
      DecimalRoundTrip(n / 10);
      assert s[..|s| - 1] == DecimalString(n / 10);
    }
  }
}

=== FILE: js_errors.dfy ===
/**
 * What the modelled code can throw or reject with, and how an asynchronous
 * call settles.
 */
module JsErrors {
  import opened ValidationErrors

  /** An error object produced by a library call (a network failure, a body
      that is not JSON); the adapters pass it on as the very same object. */
  datatype Cause = Cause(description: string)

  datatype JsError =
    | Validation(error: ValidationError)
    | PlainError(message: string)
    | TypeError(message: string)
    | Propagated(cause: Cause)

  /** How a promise settles. */
  datatype Settled<T> = Fulfilled(value: T) | Rejected(error: JsError)
}

=== FILE: json_values.dfy ===
/**
 * Parsed JSON bodies as the adapters see them, property reads on them, and
 * their conversion to text inside a template literal.
 */
module JsonValues {

  /** A value `response.json()` can produce. A number is kept as the text
      JavaScript prints for it; nothing here computes with numbers. */
  datatype Json =
    | JNull
    | JBool(b: bool)
    | JNumber(text: string)
    | JString(s: string)
    | JArray(items: seq<Json>)
    | JObject(members: map<string, Json>)

  /** The result of reading `v.key`: no such property (`undefined`), its
      value, or a TypeError because `v` is `null`. */
  datatype Property = Absent | Present(value: Json) | NullReceiver

  /** `v.key` on a parsed value. Only the own members of an object are
      modelled; the built-in properties of arrays and primitives (`length`
      and the like) are not, and none of the keys the adapters read is one. */
  function ReadProperty(v: Json, key: string): (p: Property)
    ensures p.NullReceiver? <==> v.JNull?
    ensures p.Present? <==> v.JObject? && key in v.members
    ensures p.Present? ==> p.value == v.members[key]
  {
    match v
    case JNull => NullReceiver
    case JObject(m) => if key in m then Present(m[key]) else Absent
    case _ => Absent
  }

  /** The TypeError a failed conversion to a primitive throws. */
  const NOT_PRIMITIVE := "Cannot convert object to primitive value"

  /** The outcome of turning a value into text: the text, or the TypeError. */
  datatype Conversion = Converted(s: string) | NotPrimitive

  /** Whether `${v}` succeeds. A parsed object is converted by the inherited
      `toString` unless it has an own member of that name: such a member is
      never callable, the inherited `valueOf` returns the object itself, and
      the conversion throws. An array converts when all its elements do. */
  predicate Convertible(v: Json)
    decreases v
  {
    match v
    case JObject(m) => "toString" !in m
    case JArray(items) => forall i :: 0 <= i < |items| ==> Convertible(items[i])
    case _ => true
  }

  /** `${v}`: the text a template literal substitutes for `v`. Arrays are
      joined with `,`, their `null` elements left empty. */
  function ToText(v: Json): (c: Conversion)
    ensures c.Converted? <==> Convertible(v)
    ensures v.JString? ==> c == Converted(v.s)
    decreases v
  {
    match v
    case JNull => Converted("null")
    case JBool(b) => Converted(if b then "true" else "false")
    case JNumber(t) => Converted(t)
    case JString(s) => Converted(s)
    case JArray(items) => JoinItems(items)
    case JObject(m) => if "toString" in m then NotPrimitive else Converted("[object Object]")
  }

  /** `items.join(',')`: the first element that cannot be converted makes
      the whole join throw. */
  function JoinItems(items: seq<Json>): (c: Conversion)
    ensures c.Converted? <==> forall i :: 0 <= i < |items| ==> Convertible(items[i])
    decreases items
  {
    if items == [] then Converted("")
    else
      var first := if items[0].JNull? then Converted("") else ToText(items[0]);
      if first.NotPrimitive? then NotPrimitive
      else if |items| == 1 then first
      else
        var rest := JoinItems(items[1..]);
        assert forall i :: 1 <= i < |items| ==> items[1..][i - 1] == items[i];
        if rest.NotPrimitive? then NotPrimitive else Converted(first.s + "," + rest.s)
  }
}

=== FILE: utf8.dfy ===
/**
 * UTF-8, as the form-urlencoded serializer uses it to turn a string into
 * the bytes it percent-encodes, and as the matching parser decodes them.
 */
module Utf8 {

  type byte = x: int | 0 <= x < 0x100

  predicate IsContinuation(b: byte) {
    0x80 <= b < 0xC0
  }

  /** The six value bits a continuation byte carries. */
  function Payload(b: byte): int {
    b as int - 0x80
  }

  /** The one to four bytes encoding one code point. */
  function EncodeChar(c: char): (bs: seq<byte>)
    ensures 1 <= |bs| <= 4
    ensures (|bs| == 1) == (c as int < 0x80)
    ensures |bs| == 1 ==> bs[0] == c as int
    ensures |bs| > 1 ==> 0xC2 <= bs[0] <= 0xF4 && forall i :: 1 <= i < |bs| ==> IsContinuation(bs[i])
  {
    var cp := c as int;
    if cp < 0x80 then [cp]
    else if cp < 0x800 then [0xC0 + cp / 0x40, 0x80 + cp % 0x40]
    else if cp < 0x1_0000 then [0xE0 + cp / 0x1000, 0x80 + (cp / 0x40) % 0x40, 0x80 + cp % 0x40]
    else [0xF0 + cp / 0x4_0000, 0x80 + (cp / 0x1000) % 0x40, 0x80 + (cp / 0x40) % 0x40, 0x80 + cp % 0x40]
  }

  function Encode(s: string): seq<byte> {
    if s == [] then [] else EncodeChar(s[0]) + Encode(s[1..])
  }

  const REPLACEMENT: char := '\U{FFFD}'

  /** Decodes the code point at the head of `bs` and says how many bytes it
      took. A malformed head yields U+FFFD for one byte. */
  function DecodeFirst(bs: seq<byte>): (r: (char, nat))
    requires |bs| > 0
    ensures 1 <= r.1 <= |bs|
  {
    var b0 := bs[0] as int;
    if b0 < 0x80 then
      (b0 as char, 1)
    else if 0xC2 <= b0 < 0xE0 && |bs| >= 2 && IsContinuation(bs[1]) then
      (((b0 - 0xC0) * 0x40 + Payload(bs[1])) as char, 2)
    else if 0xE0 <= b0 < 0xF0 && |bs| >= 3 && IsContinuation(bs[1]) && IsContinuation(bs[2]) then
      var cp := (b0 - 0xE0) * 0x1000 + Payload(bs[1]) * 0x40 + Payload(bs[2]);
      if 0x800 <= cp && !(0xD800 <= cp < 0xE000) then (cp as char, 3) else (REPLACEMENT, 1)
    else if 0xF0 <= b0 < 0xF5 && |bs| >= 4 && IsContinuation(bs[1]) && IsContinuation(bs[2]) && IsContinuation(bs[3]) then
      var cp := (b0 - 0xF0) * 0x4_0000 + Payload(bs[1]) * 0x1000 + Payload(bs[2]) * 0x40 + Payload(bs[3]);
      if 0x1_0000 <= cp < 0x11_0000 then (cp as char, 4) else (REPLACEMENT, 1)
    else
      (REPLACEMENT, 1)
  }

  function Decode(bs: seq<byte>): string
    decreases |bs|
  {
    if bs == [] then []
    else
      var (c, n) := DecodeFirst(bs);
      [c] + Decode(bs[n..])
  }

  /** The encoding of one code point is read back as that code point,
      whatever follows it. */
  lemma DecodeFirstOfEncoding(c: char, rest: seq<byte>)
    ensures DecodeFirst(EncodeChar(c) + rest) == (c, |EncodeChar(c)|)
  {
    var cp := c as int;
    var bs := EncodeChar(c) + rest;
    if cp < 0x80 {
    } else if cp < 0x800 {
      assert bs[0] == 0xC0 + cp / 0x40 && bs[1] == 0x80 + cp % 0x40;
      assert (bs[0] as int - 0xC0) * 0x40 + Payload(bs[1]) == cp;
    } else if cp < 0x1_0000 {
      var q := cp / 0x40;
      assert bs[0] == 0xE0 + q / 0x40 && bs[1] == 0x80 + q % 0x40 && bs[2] == 0x80 + cp % 0x40 by {
        assert cp / 0x1000 == q / 0x40;
      }
      assert (bs[0] as int - 0xE0) * 0x1000 + Payload(bs[1]) * 0x40 + Payload(bs[2]) == cp;
    } else {
      var q := cp / 0x40;
      var q2 := q / 0x40;
      assert bs[0] == 0xF0 + q2 / 0x40 && bs[1] == 0x80 + q2 % 0x40
          && bs[2] == 0x80 + q % 0x40 && bs[3] == 0x80 + cp % 0x40 by {
        assert cp / 0x1000 == q2;
        assert cp / 0x4_0000 == q2 / 0x40;
      }
      assert (bs[0] as int - 0xF0) * 0x4_0000 + Payload(bs[1]) * 0x1000 + Payload(bs[2]) * 0x40 + Payload(bs[3]) == cp;
    }
  }

  /** Decoding inverts encoding: no code point is lost or altered. */
  lemma {:induction false} DecodeEncode(s: string)
    ensures Decode(Encode(s)) == s
    decreases |s|
  {
    if s != [] {
      var e := EncodeChar(s[0]);
      DecodeFirstOfEncoding(s[0], Encode(s[1..]));
      assert (e + Encode(s[1..]))[|e|..] == Encode(s[1..]);
      DecodeEncode(s[1..]);
    }
  }
}

=== FILE: validation_error.dfy ===
/**
 * `ValidationError`: the error a service adapter throws when a caller's
 * parameter is unacceptable. It carries the HTTP status code the server
 * is meant to answer with and the message shown to the user.
 */
module ValidationErrors {

  const VALIDATION_ERROR_NAME := "ValidationError"

  /** Which of two identical classes built the error: the shared one, or the
      private copy the geo adapter declares. `instanceof` tells them apart. */
  datatype Origin = SharedClass | GeoServiceClass

  datatype ValidationError = ValidationError(
    origin: Origin,
    name: string,
    message: string,
    statusMessage: string,
    statusCode: int)

  /** A parameter check either returns or throws a `ValidationError`. */
  datatype Check = Passed | Thrown(error: ValidationError)

  /** `new ValidationError(code, message)` of the class `origin`. */
  function NewValidationError(origin: Origin, code: int, message: string): (e: ValidationError)
    ensures e.statusCode == code
    ensures e.statusMessage == message && e.message == message
    ensures e.name == VALIDATION_ERROR_NAME
    ensures e.origin == origin
  {
    ValidationError(origin, VALIDATION_ERROR_NAME, message, message, code)
  }

  /** The shape every constructed error has. */
  predicate Constructed(e: ValidationError) {
    e.name == VALIDATION_ERROR_NAME && e.statusMessage == e.message
  }

  /** `error instanceof C` for the class of `origin`. */
  predicate InstanceOf(e: ValidationError, origin: Origin) {
    e.origin == origin
  }

  /** A constructed error is rebuilt from its code and message alone, so the
      constructor loses nothing and adds nothing. */
  lemma ConstructedRoundTrip(e: ValidationError)
    requires Constructed(e)
    ensures NewValidationError(e.origin, e.statusCode, e.statusMessage) == e
  {
  }

  /** The geo adapter's copy builds errors equal in every field but the class,
      and they are not instances of the shared class. */
  lemma GeoCopyIsDistinctClass(code: int, message: string)
    ensures var g := NewValidationError(GeoServiceClass, code, message);
            var s := NewValidationError(SharedClass, code, message);
            g.statusCode == s.statusCode && g.statusMessage == s.statusMessage
            && g.message == s.message && g.name == s.name
            && !InstanceOf(g, SharedClass) && g != s
  {
  }
}
